=== FILE: README.md ===
# Rental house management: rent, schedule and form rules in Dafny

This project models the core of the rental house management system, a Django app in
which owners list properties, tenants book them, and rent is collected by the owner or
through the SSLCommerz payment gateway. It covers these parts:

- **Calendar** (`calendar.dfy`) holds Python's proleptic Gregorian dates. It covers month
  lengths (`calendar.monthrange`), the day ordinal behind `(end - start).days`, date
  comparison, and "add one calendar month, clamping the day". The views use that last step
  to compute next due dates.
- **Billing** (`billing.dfy`) is the duration and cost calculator of `book_property`.
  - A stay of fewer than 30 days is charged `rent / 30` per day.
  - A longer stay takes a calendar-aware year/month/day difference. It borrows the length
    of the month before the end date and floors the month count at one. The charge is
    `rent × months + rent / 30 × leftover days`.
  - The model counts what is billed in days, a month being 30 days (`BilledDays`), and
    prices them at `rent / 30` (`Charge`). `MonthlyChargeInDays` and `AsWrittenFormula`
    show that this is the view's own expression.
- **Forms** (`forms.dfy`) holds the validators of form.py. Each one takes the values its
  form has already cleaned and either passes or raises one error.
- **Ledger** (`ledger.dfy`) is one booking's payments table.
  - It holds the status values of models.py and the queries the views run (earliest
    pending payment, lookup by transaction id, latest payment date).
  - Each change a view makes to the table is written as a function of the table before
    it.
  - `LedgerValid` is the invariant every reachable table keeps. Dates are valid. No two
    pending payments share a due date. Completed payments carry a payment date.
    Transaction ids are unique.
  - The tenant dashboard's "payment due / next due / fully paid" row is also here.
- **Scheduler** (`scheduler.dfy`) covers `book_property` and the `Booking` class.
  - The class holds one booking's status, its property's status and its payments table.
  - Its methods are the views that change them: confirm and cancel the booking, confirm
    receipt of a payment, start a gateway payment, and the gateway's success, fail,
    cancel and IPN callbacks.
  - Each method states its whole new state through the Ledger functions, and keeps
    `Valid()`.
  - A booking holds the months and total it was created with. `book_property` stores the
    calculator as written, so a floored stay's booking holds the doubled total.

Some modelling choices apply throughout:

- Money is an exact `real`.
- "Today" is a parameter.
- A payment's number is its position in the booking's table.
- The gateway's verdict (the validation request and its `VALID` status) is a boolean
  parameter.
- The session's payment id, the gateway's transaction id and whether the session names
  the booking are parameters too.

Some behaviours of the code are easy to miss:

- The code overwrites a payment's status from any state: completed, failed and cancelled
  are not final. Owner confirmation, a short-stay gateway success and the IPN complete
  it; fail and cancel mark it failed or cancelled.
- The gateway writes the status `'cancelled'`, which `PaymentStatus` in models.py does not
  list. `Ledger.PaymentStatus` has a `Cancelled` constructor for it.
- Only owner confirmation respects the expected number of payments. Starting a gateway
  payment with nothing pending creates one more payment. So "count ≤ expected" is a
  property of owner confirmation only (`Scheduler.Booking.ConfirmPayment`), not an
  invariant of the table.
- The dashboard computes "fully paid" only when no payment is pending. There it reduces
  to "some payment is completed" (`Ledger.Dashboard`).

## Model

| member | source | states |
|---|---|---|
| Calendar.DaysInMonth | rentalhouse/rentalapp/views.py:484 | a month has 28 to 31 days; February has 29 exactly in leap years, 28 otherwise |
| Calendar.DaysBeforeMonth | rentalhouse/rentalapp/views.py:465 | the months before month m hold between 28·(m−1) and 31·(m−1) days |
| Calendar.DaysBeforeYearGrows | rentalhouse/rentalapp/views.py:465 | a later year starts at least one whole year of days later |
| Calendar.DaysBeforeMonthGrows | rentalhouse/rentalapp/views.py:465 | a later month of a year starts at least one whole month of days later |
| Calendar.DaysBeforeMonthFullYear | rentalhouse/rentalapp/views.py:465 | the twelve month lengths add up to the year length |
| Calendar.Ordinal | rentalhouse/rentalapp/views.py:465 | `toordinal()` counts days from 0001-01-01, which is day 1; every valid date has a positive ordinal |
| Calendar.DaysBetween | rentalhouse/rentalapp/views.py:465 | `(b - a).days` is positive exactly when `a` comes first and zero exactly on the same date |
| Calendar.OrdinalOrder | rentalhouse/rentalapp/views.py:463 | comparing two valid dates agrees with comparing their day ordinals, for both `<` and `==` |
| Calendar.DaysIntoNextMonth | rentalhouse/rentalapp/views.py:465 | from a date to a day of the following calendar month is the rest of the month plus that day |
| Calendar.DaysWithinMonth | rentalhouse/rentalapp/views.py:465 | within one month the day difference is the difference of the day numbers |
| Calendar.AddOneMonth | rentalhouse/rentalapp/views.py:971-976 | the next due date is a valid date strictly after the base, in the next calendar month (December rolls to January of the next year), with day min(base day, target month length); it is absent only for December 9999, where `date.replace` raises |
| Calendar.AddOneMonthSpan | rentalhouse/rentalapp/views.py:151-155 | the next due date is 28 to 31 days after its base, never on a later day of the month, and on the same day when that day exists in the target month |
| Calendar.MonthEndClamp | rentalhouse/rentalapp/views.py:971-976 | 2024-01-31 → 2024-02-29, 2023-01-31 → 2023-02-28, 2023-12-15 → 2024-01-15 |
| Billing.CalendarDiff | rentalhouse/rentalapp/views.py:476-491 | the whole months are the plain month distance, one fewer when the end day of month lies before the start's; without a borrow the days are the day-of-month difference; months lie in 0..11, leftover days in −2..30, and a start before the end gives no negative years; with a borrow the days are the day-of-month difference plus the length of the month before the end month |
| Billing.BorrowedDays | rentalhouse/rentalapp/views.py:480-486 | when the start's day of month exists in the month before the end month, the borrowed leftover days are exactly the days from that day in the previous month to the end date |
| Billing.BilledMonths | rentalhouse/rentalapp/views.py:459-499 | no months are billed exactly when the end is not after the start or the stay is under 30 days; otherwise at least one |
| Billing.BilledDaysAsWritten | rentalhouse/rentalapp/views.py:463-499 | as the code bills: nothing exactly when the end is not after the start, and exactly the days between the dates under 30 days |
| Billing.BilledDays | rentalhouse/rentalapp/views.py:463-499 | corrected: nothing exactly when the end is not after the start, and exactly the days between the dates for a stay under 30 days or without one whole calendar month |
| Billing.BookingCostAsWritten | rentalhouse/rentalapp/views.py:459-499 | the code's `duration_months` and `total_amount`: the defaults 0 and 0 when the end is not after the start, and no months exactly for a stay under 30 days |
| Billing.BookingCost | rentalhouse/rentalapp/views.py:459-499 | the corrected calculator keeps the code's defaults and its rule for when months are billed |
| Billing.SubMonthDiffIsDays | rentalhouse/rentalapp/views.py:476-491 | a difference without a whole month holds exactly the days between the dates |
| Billing.MonthlyChargeInDays | rentalhouse/rentalapp/views.py:496-497 | `rent × months + rent/30 × d` is rent/30 per day over 30·months + d days |
| Billing.ChargeShift | rentalhouse/rentalapp/views.py:496-497 | 30 fewer billed days cost exactly one month's rent less |
| Billing.ChargePositive | rentalhouse/rentalapp/views.py:469-470 | with positive rent, one or more days cost a positive amount |
| Billing.AsWrittenFormula | rentalhouse/rentalapp/views.py:463-499 | the total the code stores is rent/30 × max(1, days) under 30 days and rent × months + rent/30 × leftover days otherwise |
| Billing.SameDayDays | rentalhouse/rentalapp/views.py:476-499 | equal day of month on a long stay bills the month distance and 30 days per month, no leftover |
| Billing.ShortStayPerDay | rentalhouse/rentalapp/views.py:468-471 | a stay under 30 days lasts at least one day, bills no months and costs rent/30 per day |
| Billing.LongStayMonths | rentalhouse/rentalapp/views.py:476-494 | a stay of 30 days or more bills at least one month, the month component lies in 0..11, and the months billed are 12·years + months whenever that is at least one |
| Billing.SameDayWholeMonths | rentalhouse/rentalapp/views.py:476-499 | equal day of month on a long stay bills exactly the month distance at rent per month and no leftover days |
| Billing.SubMonthStayPerDay | rentalhouse/rentalapp/views.py:463-499 | a stay shorter than one calendar month costs rent/30 per day, including a 30-day stay inside a 31-day month |
| Billing.CorrectionOnlyOnFlooredStays | rentalhouse/rentalapp/views.py:493-498 | the corrected calculator bills the same months as the code; its total differs only on floored stays, by exactly one month's rent |
| Billing.PositiveCharge | rentalhouse/rentalapp/views.py:463-499 | with positive rent every booking whose start precedes its end costs a positive amount |
| Billing.TenDayStay | rentalhouse/rentalapp/views.py:468-471 | 10 days at rent 30000 cost 10000 and no months |
| Billing.ThreeWholeMonths | rentalhouse/rentalapp/views.py:476-499 | 2024-01-15 → 2024-04-15 at rent 30000 is 3 months costing 90000 |
| Billing.BorrowFromLeapFebruary | rentalhouse/rentalapp/views.py:480-486 | 2024-01-31 → 2024-03-03 borrows February's 29 days: 1 month and 1 day, 31000 at rent 30000 |
| Billing.SubMonthDoubleBilled | rentalhouse/rentalapp/views.py:493-498 | 2024-03-31 → 2024-04-30 and 2024-01-01 → 2024-01-31 (30 days each) cost 2 × rent as written and 1 × rent corrected |
| Forms.CleanRegistration | rentalhouse/rentalapp/form.py:33-41 | passwords are rejected exactly when both are given and differ; an absent or empty one never reports a mismatch |
| Forms.CleanRentAmount | rentalhouse/rentalapp/form.py:104-108 | exactly the positive rents are accepted |
| Forms.CleanAvailableFrom | rentalhouse/rentalapp/form.py:110-114 | an absent date or one on or after today is accepted |
| Forms.CleanBedrooms | rentalhouse/rentalapp/form.py:116-120 | exactly the negative counts are rejected; the truthiness test in front of the sign test changes nothing |
| Forms.CleanSearch | rentalhouse/rentalapp/form.py:168-176 | the range is rejected exactly when both bounds are given and non-zero and the minimum exceeds the maximum |
| Forms.SearchZeroBoundIgnored | rentalhouse/rentalapp/form.py:146-176 | over the admissible bounds (≥ 0), a zero bound never triggers the error, and the range is rejected exactly when a positive maximum lies below the minimum |
| Forms.CleanBooking | rentalhouse/rentalapp/form.py:193-209 | accepted exactly when the end follows the start, the start is not in the past and, when the property is given, not before its available date; each error code is reported exactly when its check is the first to fail, in that order, and no other code is ever reported |
| Forms.BookingWithoutPropertyIgnoresAvailability | rentalhouse/rentalapp/form.py:179-181 | without a property the availability rule never applies; with one, a valid request passes exactly when the start is on or after the available date |
| Forms.CleanPaymentAmount | rentalhouse/rentalapp/form.py:221-225 | exactly the positive amounts are accepted |
| Forms.CleanDueDate | rentalhouse/rentalapp/form.py:227-231 | an absent due date or one on or after today is accepted |
| Forms.CleanComplaintTitle | rentalhouse/rentalapp/form.py:244-248 | titles of at least five characters are accepted |
| Forms.CleanRating | rentalhouse/rentalapp/form.py:272-276 | exactly the ratings 1 to 5 are accepted |
| Forms.CleanReviewText | rentalhouse/rentalapp/form.py:278-282 | an empty review or one of at least ten characters is accepted |
| Forms.SkipSpace | rentalhouse/rentalapp/form.py:330 | the start of the stripped text: every character skipped is whitespace and the one reached is not (or the text ends) |
| Forms.BackSpace | rentalhouse/rentalapp/form.py:330 | the end of the stripped text: every character dropped from the back is whitespace and the last one kept is not (or nothing is kept) |
| Forms.Strip | rentalhouse/rentalapp/form.py:330 | `strip()` returns the slice of the text between its leading and its trailing whitespace runs; it neither starts nor ends with whitespace and is empty exactly when the text is whitespace only |
| Forms.CleanMessageText | rentalhouse/rentalapp/form.py:328-332 | a message is rejected exactly when every character is whitespace (the empty text included) |
| Forms.CleanReport | rentalhouse/rentalapp/form.py:478-486 | rejected exactly when both dates are given and the start is after the end; equal dates are accepted |
| Ledger.EarliestPending | rentalhouse/rentalapp/views.py:1316 | absent exactly when nothing is pending; otherwise a pending payment whose due date is on or before every pending due date, and strictly before those of earlier-created pending payments |
| Ledger.LatestPending | rentalhouse/rentalapp/views.py:1418-1423 | absent exactly when nothing is pending; otherwise a pending payment with no pending payment created after it |
| Ledger.FindByTxn | rentalhouse/rentalapp/views.py:1410-1415 | a found payment carries the id and no other payment does; nothing is found when no payment or more than one carries it |
| Ledger.FindByTxnFinds | rentalhouse/rentalapp/models.py:224 | under the unique constraint a transaction id that is present is always found |
| Ledger.LatestPaidDate | rentalhouse/rentalapp/views.py:144-149 | absent exactly when no completed payment has a date; otherwise the date of a completed payment, on or after every completed payment's date |
| Ledger.InitialInstalment | rentalhouse/rentalapp/views.py:562-579 | the first instalment is pending, unpaid, without transaction, due on the later of start and today; a stay of 30 days or more pays one month's rent |
| Ledger.InitialInstalmentIsTotal | rentalhouse/rentalapp/views.py:565-570 | under 30 days the first instalment is the whole booking total |
| Ledger.ExpectedCount | rentalhouse/rentalapp/views.py:981 | the expected number of payments is at least one |
| Ledger.NextInstalment | rentalhouse/rentalapp/views.py:970-998 | an instalment is created exactly when one month after the base exists, is on or before the end date, the table holds fewer than the expected count and nothing pending is due that day; it is pending at one month's rent |
| Ledger.MarkReceived | rentalhouse/rentalapp/views.py:957-960 | the payment becomes completed, keeps its payment date or gets today's, and keeps amount, due date and transaction |
| Ledger.ConfirmReceipt | rentalhouse/rentalapp/views.py:957-998 | confirming completes the payment, keeps its payment date or sets today, leaves every other payment alone, and appends at most one instalment, due one month after the confirmed due date, on or before the end date, never past the expected count; an instalment is appended exactly when that next-instalment rule produces one, and it is a pending payment of one month's rent with no payment date, transaction id or payment method |
| Ledger.ConfirmReceiptKeepsLedger | rentalhouse/rentalapp/views.py:957-998 | confirming receipt keeps the table invariant, in particular no duplicate pending due date |
| Ledger.ConfirmTwiceCreatesOnce | rentalhouse/rentalapp/views.py:985-991 | confirming the same payment a second time changes nothing |
| Ledger.ReserveForGateway | rentalhouse/rentalapp/views.py:1316-1334 | a started gateway session refers to a pending payment carrying its transaction id (the earliest pending one when any is pending, otherwise a new one for the total, due today); a payment is created only when nothing was pending; a reused payment changes only its transaction id and payment method, which becomes the gateway; a created payment has no payment date; a refused save changes nothing, and a save is refused exactly when the transaction id is already carried by another payment; no other payment changes |
| Ledger.ReserveKeepsLedger | rentalhouse/rentalapp/views.py:1316-1334 | starting a gateway payment keeps the table invariant |
| Ledger.LocateGatewayPayment | rentalhouse/rentalapp/views.py:1397-1425 | the session's payment when it exists; otherwise the unique payment carrying the transaction id; otherwise, when the session names the booking, its latest pending payment; any result is in the table, and one found by the fallback is pending |
| Ledger.RecordGatewaySuccess | rentalhouse/rentalapp/views.py:1427-1444 | the payment records the gateway's transaction id and keeps or sets its payment date; it is completed for a short stay and keeps its status otherwise |
| Ledger.RecordIpn | rentalhouse/rentalapp/views.py:1612-1616 | the payment is completed and dated today; amount, due date and transaction stay |
| Ledger.GatewaySuccessKeepsLedger | rentalhouse/rentalapp/views.py:1427-1444 | recording a gateway success keeps the table invariant when no other payment holds the transaction id |
| Ledger.IpnKeepsLedger | rentalhouse/rentalapp/views.py:1612-1616 | recording an IPN keeps the table invariant |
| Ledger.CloseKeepsLedger | rentalhouse/rentalapp/views.py:1535-1541 | marking a payment failed or cancelled keeps the table invariant |
| Ledger.Dashboard | rentalhouse/rentalapp/views.py:134-167 | with a pending payment the earliest one is due; otherwise fully paid means some payment completed, the next due date is exactly one calendar month after the latest payment date (28–31 days), due once today reaches it, and fully paid (`Ledger.FullyPaid`: nothing pending due by the end date and some payment completed) whenever some payment completed; with nothing completed nothing is due; a latest payment in December 9999, which has no next month, shows a payment due with no date |
| Scheduler.BookProperty | rentalhouse/rentalapp/views.py:446-506 | corrected: a booking is accepted exactly for an available property, an end after the start, a start not in the past and not before the available date; its terms are the booking cost and deposit, positive for positive rent |
| Scheduler.BookPropertyAsWritten | rentalhouse/rentalapp/views.py:446-506 | as written: accepted exactly for an available property, an end after the start and a start not in the past; its terms are the code's calculator and the deposit, positive for positive rent |
| Scheduler.SecurityDeposit | rentalhouse/rentalapp/views.py:504 | the property's deposit when it is set and non-zero, otherwise the rent; it is zero only for a zero rent |
| Scheduler.BookingBeforeAvailability | rentalhouse/rentalapp/views.py:451 | a start a month before the property's available date is accepted as written and refused when the form is given the property |
| Scheduler.BookPropertyAgreesWhenAvailable | rentalhouse/rentalapp/views.py:451-504 | when the start is on or after the available date, the code and the corrected booking accept the same requests and differ only on floored stays |
| Scheduler.Booking.constructor | rentalhouse/rentalapp/views.py:452-506 | a new booking is pending, holds the months and total it was computed with (as written, the doubled total of a floored stay included), and has no payments |
| Scheduler.Booking.ConfirmBooking | rentalhouse/rentalapp/views.py:551-580 | only a pending booking changes: it becomes confirmed, the property occupied, and the first instalment is appended only if the table is empty |
| Scheduler.Booking.CancelBooking | rentalhouse/rentalapp/views.py:646-656 | only a pending booking changes: it becomes cancelled and an occupied property available; payments are untouched |
| Scheduler.Booking.ConfirmPayment | rentalhouse/rentalapp/views.py:957-999 | an existing payment is confirmed as `ConfirmReceipt` describes; a created instalment never pushes the count past the expected count; statuses are untouched |
| Scheduler.Booking.StartGatewayPayment | rentalhouse/rentalapp/views.py:1316-1334 | the table becomes `ReserveForGateway` of the old table and the session refers to its payment |
| Scheduler.Booking.GatewaySuccess | rentalhouse/rentalapp/views.py:1397-1453 | a verified success records the transaction on the located payment; a stay of at most 30 days (`Ledger.ShortStay`) completes it, confirms a pending booking and occupies an available property; a longer stay leaves the payment's status alone; a duplicate transaction id or a missing record changes nothing |
| Scheduler.Booking.GatewayFail | rentalhouse/rentalapp/views.py:1535-1541 | the session's payment, if it exists, becomes failed; nothing else changes |
| Scheduler.Booking.GatewayCancel | rentalhouse/rentalapp/views.py:1559-1565 | the session's payment, if it exists, becomes cancelled; nothing else changes |
| Scheduler.Booking.GatewayIpn | rentalhouse/rentalapp/views.py:1607-1627 | a verified notification completes the one payment with its transaction id and dates it today, confirms a pending booking and occupies an available property; without a unique match nothing changes |

## Left out

- Django plumbing is left out: the ORM, templates, redirects, flash messages, sessions,
  authentication and the permission checks at the head of each view. The model holds one
  booking, its property status and its payments table.
- Notifications and email (`create_notification`) are left out. They are side effects
  whose failures the views ignore.
- The SSLCommerz HTTP requests are left out: payload building, the retry loop with
  backoff, JSON parsing and the validation request. Their outcome is the `verified`
  parameter. The transaction id the gateway generates from the booking id and the clock
  is the `txn` parameter.
- Scheduler.Booking.GatewaySuccess uses one transaction id for both the lookup and the
  value it records. The view looks up `tran_id or request tran_id` and records
  `verification tran_id` falling back to the request's. The two differ only when the
  gateway answers with an empty transaction id.
- Float conversion and `round(..., 2)` of money amounts are left out. Amounts are exact
  reals.
- Scheduler.Booking: the rent is fixed when the booking is created. The views re-read the
  property's current rent when they create instalments.
- Scheduler.Booking models one booking per property. Other bookings of the same property
  do not change its status here.
- Transactional races are left out, for example two concurrent confirmations between the
  duplicate-pending check and the insert. Exceptions the views swallow after a save has
  happened are left out too. Such an exception is modelled only where it leaves no
  change: a save refused by the unique transaction id, a missing session payment, or a
  multiple match in the IPN lookup.
- Ledger.LatestPaidDate assumes the database orders absent payment dates last. Under
  `LedgerValid` every completed payment has a date, so the choice never matters.
- Ledger.ConfirmReceipt takes the confirmed payment's due date as the base of the next
  instalment. The model field is required, so the `payment_date` and "today"
  fallbacks never apply.
- Forms validators take already-cleaned field values. Django's own field validation is
  not modelled: required, `min_length`, `min_value`, date parsing and CharField
  whitespace stripping. Registration's `clean_email` queries the database and is not
  modelled.
- Search filtering, CSV/PDF export, admin.py, urls.py and context_processors.py are not
  part of this model.

## Findings

| source | as written | input that shows it | evidently intended | confidence | as-written member | corrected member |
|---|---|---|---|---|---|---|
| rentalhouse/rentalapp/views.py:493-498 | a stay of 30 days or more holding no whole calendar month is floored to one month and still billed its 30 leftover days | 2024-03-31 → 2024-04-30 (or 2024-01-01 → 2024-01-31) at rent R costs 2R for one month | the floored month absorbs those 30 days, so the stay costs R, as it would per day | medium, not executed | Billing.BookingCostAsWritten (Billing.SubMonthDoubleBilled) | Billing.BookingCost (Billing.SubMonthStayPerDay, Billing.CorrectionOnlyOnFlooredStays) |
| rentalhouse/rentalapp/views.py:451 | `BookingForm(request.POST)` is built without `property=`, so the form's available-date check (form.py:205-207) never runs when a tenant books | property available from 2026-12-01, today 2026-10-11, booking 2026-11-01 → 2026-12-15 is accepted | a start before the property's available date is refused | medium, not executed | Scheduler.BookPropertyAsWritten (Scheduler.BookingBeforeAvailability) | Scheduler.BookProperty |

=== FILE: billing.dfy ===
/**
 * The booking duration and cost calculator of `book_property` (views.py): a stay of
 * fewer than 30 days is billed per day at rent / 30; a longer stay is billed by whole
 * calendar months plus the leftover days at the same daily rate.
 */
module Billing {
  import opened Calendar

  /** The short-stay threshold and the divisor of the daily rate. */
  const DaysPerMonth: int := 30

  /** The calendar-aware year/month/day difference between two dates. */
  datatype Delta = Delta(years: int, months: int, days: int)

  /** What a booking stores: `duration_months` and `total_amount`. */
  datatype Cost = Cost(months: int, total: real)

  function Max(a: int, b: int): int {
    if a >= b then a else b
  }

  /** The daily rate, `rent / 30`. */
  function PerDay(rent: real): real {
    rent / DaysPerMonth as real
  }

  /**
   * End minus start as years, months and days: a negative day difference borrows the
   * length of the month before the end date's month, a negative month difference
   * borrows twelve months. The whole months are the plain month distance, one fewer when
   * the end's day of month lies before the start's; for a start before the end the
   * result is normalised: no negative years, months in 0..11, and leftover days between
   * -2 and 30 (negative when the start day lies past the end of the borrowed month).
   */
  function CalendarDiff(s: Date, e: Date): (r: Delta)
    requires ValidDate(s) && ValidDate(e)
    ensures 12 * r.years + r.months == 12 * (e.year - s.year) + (e.month - s.month) - (if e.day < s.day then 1 else 0)
    ensures e.day >= s.day ==> r.days == e.day - s.day
    ensures e.day < s.day ==> r.days == e.day - s.day + DaysInMonth(PrevMonthYear(e), PrevMonthNumber(e))
    ensures 0 <= r.months <= 11 && -2 <= r.days <= 30
    ensures Before(s, e) ==> r.years >= 0
  {
    var y := e.year - s.year;
    var m := e.month - s.month;
    var d := e.day - s.day;
    var m1 := if d < 0 then m - 1 else m;
    var d1 := if d < 0 then d + DaysInMonth(PrevMonthYear(e), PrevMonthNumber(e)) else d;
    if m1 < 0 then Delta(y - 1, m1 + 12, d1) else Delta(y, m1, d1)
  }

  /** The view's charge: whole months at the rent plus leftover days at the daily rate. */
  function MonthlyCharge(rent: real, months: int, leftover: int): real {
    rent * months as real + PerDay(rent) * leftover as real
  }

  /** `days` days at the daily rate. */
  function Charge(rent: real, days: int): real {
    PerDay(rent) * days as real
  }

  /** The months billed: none under 30 days, otherwise the calendar months, at least one. */
  function BilledMonths(s: Date, e: Date): (n: int)
    requires ValidDate(s) && ValidDate(e)
    ensures n >= 0
    ensures n == 0 <==> !Before(s, e) || DaysBetween(s, e) < DaysPerMonth
  {
    if !Before(s, e) || DaysBetween(s, e) < DaysPerMonth then 0
    else
      var delta := CalendarDiff(s, e);
      Max(1, 12 * delta.years + delta.months)
  }

  /**
   * The days the code bills, each billed month counted as 30 days: at least one day under
   * 30 days, otherwise the billed months plus the leftover days. When the calendar
   * difference holds no whole month, the month count is raised to one while the leftover
   * days (a full 30) are still billed on top.
   */
  function BilledDaysAsWritten(s: Date, e: Date): (n: int)
    requires ValidDate(s) && ValidDate(e)
    ensures n >= 0 && (n == 0 <==> !Before(s, e))
    ensures Before(s, e) && DaysBetween(s, e) < DaysPerMonth ==> n == DaysBetween(s, e)
  {
    if !Before(s, e) then 0
    else
      var days := DaysBetween(s, e);
      if days < DaysPerMonth then Max(1, days)
      else DaysPerMonth * BilledMonths(s, e) + CalendarDiff(s, e).days
  }

  /**
   * As written, except that a month raised to one absorbs 30 of the leftover days: a
   * stay without one whole calendar month is billed exactly its days.
   */
  function BilledDays(s: Date, e: Date): (n: int)
    requires ValidDate(s) && ValidDate(e)
    ensures n >= 0 && (n == 0 <==> !Before(s, e))
    ensures Before(s, e) && DaysBetween(s, e) < DaysPerMonth ==> n == DaysBetween(s, e)
    ensures Before(s, e) && CalendarDiff(s, e).years == 0 && CalendarDiff(s, e).months == 0 ==> n == DaysBetween(s, e)
  {
    if !Before(s, e) then 0
    else
      var days := DaysBetween(s, e);
      if days < DaysPerMonth then Max(1, days)
      else
        var delta := CalendarDiff(s, e);
        if 12 * delta.years + delta.months < 1 then
          SubMonthDiffIsDays(s, e);
          delta.days
        else DaysPerMonth * BilledMonths(s, e) + delta.days
  }

  /**
   * The calculator as views.py writes it: `duration_months` and `total_amount`. An end
   * not after the start keeps the view's defaults, no months and nothing to pay.
   */
  function BookingCostAsWritten(s: Date, e: Date, rent: real): (c: Cost)
    requires ValidDate(s) && ValidDate(e)
    ensures !Before(s, e) ==> c == Cost(0, 0.0)
    ensures c.months == 0 <==> !Before(s, e) || DaysBetween(s, e) < DaysPerMonth
  {
    Cost(BilledMonths(s, e), Charge(rent, BilledDaysAsWritten(s, e)))
  }

  /** The corrected calculator; it keeps the defaults and the months of the code. */
  function BookingCost(s: Date, e: Date, rent: real): (c: Cost)
    requires ValidDate(s) && ValidDate(e)
    ensures !Before(s, e) ==> c == Cost(0, 0.0)
    ensures c.months == 0 <==> !Before(s, e) || DaysBetween(s, e) < DaysPerMonth
  {
    Cost(BilledMonths(s, e), Charge(rent, BilledDays(s, e)))
  }

  // ---------------------------------------------------------------------------
  // Money

  /** Counting a month as 30 days at the daily rate is the view's formula. */
  lemma MonthlyChargeInDays(rent: real, months: int, leftover: int)
    ensures MonthlyCharge(rent, months, leftover) == Charge(rent, DaysPerMonth * months + leftover)
  {
    var p := PerDay(rent);
    assert (DaysPerMonth * months + leftover) as real == 30.0 * months as real + leftover as real;
    assert p * (30.0 * months as real) == (p * 30.0) * months as real;
  }

  lemma ChargeShift(rent: real, days: int)
    ensures Charge(rent, days - DaysPerMonth) == Charge(rent, days) - rent
  {
    var p := PerDay(rent);
    assert p * (days - DaysPerMonth) as real == p * days as real - p * 30.0;
  }

  lemma ChargePositive(rent: real, days: int)
    requires rent > 0.0 && days >= 1
    ensures Charge(rent, days) > 0.0
  {
    var p := PerDay(rent);
    assert p * days as real - p == p * (days - 1) as real;
    assert p * (days - 1) as real >= 0.0;
  }

  /**
   * The total the code stores is the view's own expression: rent / 30 per day (at least
   * one) for a short stay, otherwise `rent × months + rent / 30 × leftover days`.
   */
  lemma AsWrittenFormula(s: Date, e: Date, rent: real)
    requires ValidDate(s) && ValidDate(e) && Before(s, e)
    ensures DaysBetween(s, e) < DaysPerMonth ==>
      BookingCostAsWritten(s, e, rent).total == Charge(rent, Max(1, DaysBetween(s, e)))
    ensures DaysBetween(s, e) >= DaysPerMonth ==>
      BookingCostAsWritten(s, e, rent).total ==
        MonthlyCharge(rent, BilledMonths(s, e), CalendarDiff(s, e).days)
  {
    if DaysBetween(s, e) >= DaysPerMonth {
      MonthlyChargeInDays(rent, BilledMonths(s, e), CalendarDiff(s, e).days);
    }
  }

  // ---------------------------------------------------------------------------
  // The calendar difference

  /**
   * A borrow counts the days from the start's day of month in the month before the end
   * date up to the end date, whenever that day exists in that month.
   */
  lemma BorrowedDays(s: Date, e: Date)
    requires ValidDate(s) && ValidDate(e) && e.day < s.day
    requires e.month > 1 || e.year > MinYear
    requires s.day <= DaysInMonth(PrevMonthYear(e), PrevMonthNumber(e))
    ensures CalendarDiff(s, e).days == DaysBetween(Date(PrevMonthYear(e), PrevMonthNumber(e), s.day), e)
  {
    DaysIntoNextMonth(Date(PrevMonthYear(e), PrevMonthNumber(e), s.day), e);
  }

  /**
   * A difference of less than one calendar month holds exactly the days between the
   * dates: the end lies in the start's month or, after a borrow, in the month after it.
   */
  lemma SubMonthDiffIsDays(s: Date, e: Date)
    requires ValidDate(s) && ValidDate(e) && Before(s, e)
    requires CalendarDiff(s, e).years == 0 && CalendarDiff(s, e).months == 0
    ensures CalendarDiff(s, e).days == DaysBetween(s, e)
  {
    if e.day >= s.day {
      DaysWithinMonth(s, e);
    } else {
      DaysIntoNextMonth(s, e);
    }
  }

  // ---------------------------------------------------------------------------
  // Properties of the calculator

  /** A stay under 30 days has no months and costs rent / 30 for each of its days. */
  lemma ShortStayPerDay(s: Date, e: Date, rent: real)
    requires ValidDate(s) && ValidDate(e) && Before(s, e) && DaysBetween(s, e) < DaysPerMonth
    ensures DaysBetween(s, e) >= 1
    ensures BookingCost(s, e, rent) == Cost(0, Charge(rent, DaysBetween(s, e)))
  {
  }

  /**
   * A stay of 30 days or more is billed for at least one month; whenever the calendar
   * difference holds whole months, those are the months billed, 12 per year.
   */
  lemma LongStayMonths(s: Date, e: Date, rent: real)
    requires ValidDate(s) && ValidDate(e) && Before(s, e) && DaysBetween(s, e) >= DaysPerMonth
    ensures var c := BookingCost(s, e, rent); var delta := CalendarDiff(s, e);
      && c.months >= 1
      && 0 <= delta.months <= 11
      && (12 * delta.years + delta.months >= 1 ==> c.months == 12 * delta.years + delta.months)
  {
  }

  /** Equal day-of-month on a long stay: the months between the dates, 30 days each. */
  lemma SameDayDays(s: Date, e: Date)
    requires ValidDate(s) && ValidDate(e) && Before(s, e) && DaysBetween(s, e) >= DaysPerMonth
    requires s.day == e.day
    ensures BilledMonths(s, e) == 12 * (e.year - s.year) + (e.month - s.month)
    ensures BilledDays(s, e) == DaysPerMonth * BilledMonths(s, e)
  {
    var delta := CalendarDiff(s, e);
    if 12 * delta.years + delta.months < 1 {
      SubMonthDiffIsDays(s, e);
      assert false;
    }
  }

  /** Equal day-of-month on a long stay: exactly rent times the months between the dates. */
  lemma SameDayWholeMonths(s: Date, e: Date, rent: real)
    requires ValidDate(s) && ValidDate(e) && Before(s, e) && DaysBetween(s, e) >= DaysPerMonth
    requires s.day == e.day
    ensures var c := BookingCost(s, e, rent);
      && c.months == 12 * (e.year - s.year) + (e.month - s.month)
      && c.total == MonthlyCharge(rent, c.months, 0)
  {
    SameDayDays(s, e);
    MonthlyChargeInDays(rent, BilledMonths(s, e), 0);
  }

  /**
   * A stay shorter than one calendar month is billed per day at rent / 30, whether it is
   * under 30 days or exactly 30 (a 31-day month).
   */
  lemma SubMonthStayPerDay(s: Date, e: Date, rent: real)
    requires ValidDate(s) && ValidDate(e) && Before(s, e)
    requires CalendarDiff(s, e).years == 0 && CalendarDiff(s, e).months == 0
    ensures BookingCost(s, e, rent).total == Charge(rent, DaysBetween(s, e))
  {
  }

  /** The stays the correction is about: 30 days or more without one whole calendar month. */
  predicate FlooredStay(s: Date, e: Date)
    requires ValidDate(s) && ValidDate(e)
  {
    Before(s, e) && DaysBetween(s, e) >= DaysPerMonth
    && 12 * CalendarDiff(s, e).years + CalendarDiff(s, e).months < 1
  }

  /**
   * The correction keeps the months billed and changes the total only on floored stays,
   * where it removes exactly the one month's rent billed twice.
   */
  lemma CorrectionOnlyOnFlooredStays(s: Date, e: Date, rent: real)
    requires ValidDate(s) && ValidDate(e)
    ensures BookingCost(s, e, rent).months == BookingCostAsWritten(s, e, rent).months
    ensures FlooredStay(s, e) ==> BookingCost(s, e, rent).total == BookingCostAsWritten(s, e, rent).total - rent
    ensures !FlooredStay(s, e) ==> BookingCost(s, e, rent).total == BookingCostAsWritten(s, e, rent).total
  {
    if FlooredStay(s, e) {
      assert BilledDays(s, e) == BilledDaysAsWritten(s, e) - DaysPerMonth;
      ChargeShift(rent, BilledDaysAsWritten(s, e));
    } else {
      assert BilledDays(s, e) == BilledDaysAsWritten(s, e);
    }
  }

  /** With a positive rent every booking with its start before its end costs something. */
  lemma PositiveCharge(s: Date, e: Date, rent: real)
    requires ValidDate(s) && ValidDate(e) && Before(s, e) && rent > 0.0
    ensures BookingCost(s, e, rent).total > 0.0
  {
    ChargePositive(rent, BilledDays(s, e));
  }

  // ---------------------------------------------------------------------------
  // Worked examples (rent 30000, so 1000 a day)

  lemma TenDayStay()
    ensures BookingCost(Date(2024, 1, 1), Date(2024, 1, 11), 30000.0) == Cost(0, 10000.0)
  {
    DaysWithinMonth(Date(2024, 1, 1), Date(2024, 1, 11));
  }

  lemma ThreeWholeMonths()
    ensures BookingCost(Date(2024, 1, 15), Date(2024, 4, 15), 30000.0) == Cost(3, 90000.0)
  {
    var s, e := Date(2024, 1, 15), Date(2024, 4, 15);
    var a, b := Date(2024, 2, 15), Date(2024, 3, 15);
    DaysIntoNextMonth(s, a);
    DaysIntoNextMonth(a, b);
    DaysIntoNextMonth(b, e);
  }

  lemma BorrowFromLeapFebruary()
    ensures BookingCost(Date(2024, 1, 31), Date(2024, 3, 3), 30000.0) == Cost(1, 31000.0)
  {
    var s, e := Date(2024, 1, 31), Date(2024, 3, 3);
    var a := Date(2024, 2, 29);
    DaysIntoNextMonth(s, a);
    DaysIntoNextMonth(a, e);
  }

  /**
   * As written, 2024-03-31 to 2024-04-30 (30 days, shorter than one calendar month) costs
   * two months' rent, and 2024-01-01 to 2024-01-31 does too; corrected, both cost one.
   */
  lemma SubMonthDoubleBilled(rent: real)
    ensures DaysBetween(Date(2024, 3, 31), Date(2024, 4, 30)) == 30
    ensures BookingCostAsWritten(Date(2024, 3, 31), Date(2024, 4, 30), rent) == Cost(1, 2.0 * rent)
    ensures BookingCost(Date(2024, 3, 31), Date(2024, 4, 30), rent) == Cost(1, rent)
    ensures BookingCostAsWritten(Date(2024, 1, 1), Date(2024, 1, 31), rent) == Cost(1, 2.0 * rent)
    ensures BookingCost(Date(2024, 1, 1), Date(2024, 1, 31), rent) == Cost(1, rent)
  {
    DaysIntoNextMonth(Date(2024, 3, 31), Date(2024, 4, 30));
    DaysWithinMonth(Date(2024, 1, 1), Date(2024, 1, 31));
  }
}

=== FILE: calendar.dfy ===
/**
 * Proleptic Gregorian dates as Python's `datetime.date` and `calendar` modules see them:
 * month lengths (`calendar.monthrange`), the day ordinal behind `(end - start).days`,
 * date comparison, and the "add one calendar month, clamping the day" step the rental
 * views use to compute the next due date.
 */
module Calendar {
  import opened Wrappers

  /** Python's `datetime.MINYEAR` and `datetime.MAXYEAR`. */
  const MinYear: int := 1
  const MaxYear: int := 9999

  datatype Date = Date(year: int, month: int, day: int)

  predicate IsLeap(y: int) {
    y % 4 == 0 && (y % 100 != 0 || y % 400 == 0)
  }

  function YearLength(y: int): int {
    if IsLeap(y) then 366 else 365
  }

  /** The day count `calendar.monthrange(y, m)[1]` returns. */
  function DaysInMonth(y: int, m: int): (n: int)
    requires 1 <= m <= 12
    ensures 28 <= n <= 31
    ensures n == 29 <==> (m == 2 && IsLeap(y))
    ensures n == 28 <==> (m == 2 && !IsLeap(y))
  {
    if m == 2 then (if IsLeap(y) then 29 else 28)
    else if m == 4 || m == 6 || m == 9 || m == 11 then 30
    else 31
  }

  /** A value Python's `date(year, month, day)` accepts. */
  predicate ValidDate(d: Date) {
    && MinYear <= d.year <= MaxYear
    && 1 <= d.month <= 12
    && 1 <= d.day <= DaysInMonth(d.year, d.month)
  }

  /** `a < b` on dates: year, then month, then day. */
  predicate Before(a: Date, b: Date) {
    || a.year < b.year
    || (a.year == b.year && a.month < b.month)
    || (a.year == b.year && a.month == b.month && a.day < b.day)
  }

  /** `a <= b` on dates. */
  predicate AtOrBefore(a: Date, b: Date) {
    Before(a, b) || a == b
  }

  function Min(a: int, b: int): int {
    if a <= b then a else b
  }

  /** Days in the years before year `y` (the closed form Python's `_days_before_year` uses). */
  function DaysBeforeYear(y: int): int
    requires y >= 1
  {
    var p := y - 1;
    p * 365 + p / 4 - p / 100 + p / 400
  }

  /** Days in the months of year `y` before month `m`. */
  function DaysBeforeMonth(y: int, m: int): (n: int)
    requires 1 <= m <= 13
    ensures 28 * (m - 1) <= n <= 31 * (m - 1)
  {
    if m == 1 then 0 else DaysBeforeMonth(y, m - 1) + DaysInMonth(y, m - 1)
  }

  /** `date.toordinal()`: 0001-01-01 is day 1. */
  function Ordinal(d: Date): (n: int)
    requires ValidDate(d)
    ensures n >= 1
    ensures d == Date(MinYear, 1, 1) ==> n == 1
  {
    DaysBeforeYear(d.year) + DaysBeforeMonth(d.year, d.month) + d.day
  }

  /** `(b - a).days`: positive exactly when `a` comes first, zero exactly on the same date. */
  function DaysBetween(a: Date, b: Date): (n: int)
    requires ValidDate(a) && ValidDate(b)
    ensures n > 0 <==> Before(a, b)
    ensures n == 0 <==> a == b
  {
    OrdinalOrder(a, b);
    Ordinal(b) - Ordinal(a)
  }

  /** The calendar month after the one `d` lies in, as (year, month). */
  function NextMonthYear(d: Date): int {
    if d.month == 12 then d.year + 1 else d.year
  }

  function NextMonthNumber(d: Date): int {
    if d.month == 12 then 1 else d.month + 1
  }

  /** The calendar month before the one `d` lies in, as (year, month). */
  function PrevMonthYear(d: Date): int {
    if d.month > 1 then d.year else d.year - 1
  }

  function PrevMonthNumber(d: Date): int {
    if d.month > 1 then d.month - 1 else 12
  }

  /**
   * One calendar month after `d`, the day clamped to the length of the target month
   * (views.py, tenant_dashboard and confirm_payment). `None` where Python's
   * `date.replace` would raise because the year leaves `MaxYear`.
   */
  function AddOneMonth(d: Date): (r: Option<Date>)
    requires ValidDate(d)
    ensures r.None? <==> (d.year == MaxYear && d.month == 12)
    ensures r.Some? ==> ValidDate(r.value) && Before(d, r.value)
    ensures r.Some? ==> r.value.year == NextMonthYear(d) && r.value.month == NextMonthNumber(d)
    ensures r.Some? ==> r.value.day == Min(d.day, DaysInMonth(r.value.year, r.value.month))
  {
    var month := d.month + 1;
    var year := d.year + (month - 1) / 12;
    var month' := (month - 1) % 12 + 1;
    var day := Min(d.day, DaysInMonth(year, month'));
    if year > MaxYear then None else Some(Date(year, month', day))
  }

  // ---------------------------------------------------------------------------
  // The ordinal counts days

  lemma DivStep(x: int, k: int)
    requires k == 4 || k == 100 || k == 400
    ensures (x + 1) / k - x / k == if (x + 1) % k == 0 then 1 else 0
  {
    if k == 4 {
    } else if k == 100 {
    } else {
    }
  }

  /** Consecutive years start `YearLength` days apart. */
  lemma DaysBeforeYearStep(y: int)
    requires y >= 1
    ensures DaysBeforeYear(y + 1) == DaysBeforeYear(y) + YearLength(y)
  {
    DivStep(y - 1, 4);
    DivStep(y - 1, 100);
    DivStep(y - 1, 400);
  }

  lemma {:induction false} DaysBeforeYearGrows(a: int, b: int)
    requires 1 <= a < b
    ensures DaysBeforeYear(a) + YearLength(a) <= DaysBeforeYear(b)
    decreases b - a
  {
    DaysBeforeYearStep(a);
    if a + 1 < b {
      DaysBeforeYearGrows(a + 1, b);
    }
  }

  lemma {:induction false} DaysBeforeMonthGrows(y: int, a: int, b: int)
    requires 1 <= a < b <= 13
    ensures DaysBeforeMonth(y, a) + DaysInMonth(y, a) <= DaysBeforeMonth(y, b)
    decreases b - a
  {
    if a + 1 < b {
      DaysBeforeMonthGrows(y, a + 1, b);
    }
  }

  /** The twelve months fill the year. */
  lemma DaysBeforeMonthFullYear(y: int)
    ensures DaysBeforeMonth(y, 13) == YearLength(y)
  {
    var feb := DaysInMonth(y, 2);
    assert DaysBeforeMonth(y, 2) == 31;
    assert DaysBeforeMonth(y, 3) == 31 + feb;
    assert DaysBeforeMonth(y, 4) == 62 + feb;
    assert DaysBeforeMonth(y, 5) == 92 + feb;
    assert DaysBeforeMonth(y, 6) == 123 + feb;
    assert DaysBeforeMonth(y, 7) == 153 + feb;
    assert DaysBeforeMonth(y, 8) == 184 + feb;
    assert DaysBeforeMonth(y, 9) == 215 + feb;
    assert DaysBeforeMonth(y, 10) == 245 + feb;
    assert DaysBeforeMonth(y, 11) == 276 + feb;
    assert DaysBeforeMonth(y, 12) == 306 + feb;
  }

  /** A valid date's ordinal lies within its year. */
  lemma OrdinalInYear(d: Date)
    requires ValidDate(d)
    ensures DaysBeforeYear(d.year) < Ordinal(d) <= DaysBeforeYear(d.year) + YearLength(d.year)
  {
    DaysBeforeMonthFullYear(d.year);
    if d.month < 12 {
      DaysBeforeMonthGrows(d.year, d.month, 13);
    }
  }

  lemma BeforeOrdinal(a: Date, b: Date)
    requires ValidDate(a) && ValidDate(b) && Before(a, b)
    ensures Ordinal(a) < Ordinal(b)
  {
    if a.year < b.year {
      OrdinalInYear(a);
      OrdinalInYear(b);
      DaysBeforeYearGrows(a.year, b.year);
    } else if a.month < b.month {
      DaysBeforeMonthGrows(a.year, a.month, b.month);
    }
  }

  /** Comparing dates and comparing their ordinals agree. */
  lemma OrdinalOrder(a: Date, b: Date)
    requires ValidDate(a) && ValidDate(b)
    ensures Before(a, b) <==> Ordinal(a) < Ordinal(b)
    ensures a == b <==> Ordinal(a) == Ordinal(b)
  {
    if Before(a, b) {
      BeforeOrdinal(a, b);
    } else if Before(b, a) {
      BeforeOrdinal(b, a);
    }
  }

  /**
   * Across a month boundary: when `b` lies in the calendar month after `a`'s, they are
   * the rest of `a`'s month plus `b.day` days apart.
   */
  lemma DaysIntoNextMonth(a: Date, b: Date)
    requires ValidDate(a) && ValidDate(b)
    requires b.year == NextMonthYear(a) && b.month == NextMonthNumber(a)
    ensures DaysBetween(a, b) == DaysInMonth(a.year, a.month) - a.day + b.day
  {
    if a.month == 12 {
      DaysBeforeYearStep(a.year);
      DaysBeforeMonthFullYear(a.year);
    }
  }

  /** Within one month, dates are `day` apart. */
  lemma DaysWithinMonth(a: Date, b: Date)
    requires ValidDate(a) && ValidDate(b) && a.year == b.year && a.month == b.month
    ensures DaysBetween(a, b) == b.day - a.day
  {
  }

  /** The next due date falls 28 to 31 days after its base date, never on a later day of month. */
  lemma AddOneMonthSpan(d: Date)
    requires ValidDate(d) && AddOneMonth(d).Some?
    ensures var n := AddOneMonth(d).value;
      && 28 <= DaysBetween(d, n) <= 31
      && n.day <= d.day
      && (d.day <= DaysInMonth(n.year, n.month) ==> n.day == d.day)
  {
    var n := AddOneMonth(d).value;
    DaysIntoNextMonth(d, n);
  }

  /** The two month-end examples: 2024-01-31 and 2023-01-31 advance to the last day of February. */
  lemma MonthEndClamp()
    ensures AddOneMonth(Date(2024, 1, 31)) == Some(Date(2024, 2, 29))
    ensures AddOneMonth(Date(2023, 1, 31)) == Some(Date(2023, 2, 28))
    ensures AddOneMonth(Date(2023, 12, 15)) == Some(Date(2024, 1, 15))
  {
  }
}

=== FILE: forms.dfy ===
/**
 * The cross-field and single-field validators of the rental forms (form.py). Each takes
 * the values the form has already cleaned (absent where the field itself failed or was
 * left empty) and either passes or raises one validation error. "Today" is a parameter.
 */
module Forms {
  import opened Wrappers
  import opened Calendar

  datatype FormError =
    | PasswordsDiffer
    | RentNotPositive
    | AvailableInPast
    | NegativeBedrooms
    | MinRentAboveMax
    | EndNotAfterStart
    | StartInPast
    | StartBeforeAvailable
    | AmountNotPositive
    | DueInPast
    | TitleTooShort
    | RatingOutOfRange
    | ReviewTooShort
    | EmptyMessage
    | ReportStartAfterEnd

  /** Python truthiness of an optional text: present and non-empty. */
  predicate TextGiven(s: Option<string>) {
    s.Some? && s.value != []
  }

  /** Python truthiness of an optional decimal: present and non-zero. */
  predicate AmountGiven(x: Option<real>) {
    x.Some? && x.value != 0.0
  }

  // ---------------------------------------------------------------------------
  // Registration

  /**
   * The passwords must match, but only when both were given: a password that failed its
   * own field checks (and so is absent) never reports a mismatch.
   */
  function CleanRegistration(password: Option<string>, confirm: Option<string>): (r: Check<FormError>)
    ensures r.Fail? ==> r.error == PasswordsDiffer
    ensures password == confirm ==> r.Pass?
    ensures !TextGiven(password) || !TextGiven(confirm) ==> r.Pass?
    ensures TextGiven(password) && TextGiven(confirm) ==> (r.Pass? <==> password == confirm)
  {
    if TextGiven(password) && TextGiven(confirm) && password.value != confirm.value then Fail(PasswordsDiffer)
    else Pass
  }

  // ---------------------------------------------------------------------------
  // Property listing

  /** Exactly the positive rents are accepted. */
  function CleanRentAmount(rent: real): (r: Check<FormError>)
    ensures r.Pass? <==> rent > 0.0
    ensures r.Fail? ==> r.error == RentNotPositive
  {
    if rent <= 0.0 then Fail(RentNotPositive) else Pass
  }

  /** An absent date or one on or after today is accepted; a past date is not. */
  function CleanAvailableFrom(from: Option<Date>, today: Date): (r: Check<FormError>)
    ensures r.Pass? <==> from.None? || AtOrBefore(today, from.value)
    ensures r.Fail? ==> r.error == AvailableInPast
  {
    if from.Some? && Before(from.value, today) then Fail(AvailableInPast) else Pass
  }

  /** The zero test in front of the sign test changes nothing: exactly the negative counts fail. */
  function CleanBedrooms(bedrooms: int): (r: Check<FormError>)
    ensures r.Pass? <==> bedrooms >= 0
    ensures r.Fail? ==> r.error == NegativeBedrooms
  {
    if bedrooms != 0 && bedrooms < 0 then Fail(NegativeBedrooms) else Pass
  }

  // ---------------------------------------------------------------------------
  // Property search

  /**
   * The rent range is rejected only when both bounds are given, non-zero, and the
   * minimum exceeds the maximum.
   */
  function CleanSearch(minRent: Option<real>, maxRent: Option<real>): (r: Check<FormError>)
    ensures r.Fail? ==> r.error == MinRentAboveMax
    ensures r.Fail? <==> AmountGiven(minRent) && AmountGiven(maxRent) && minRent.value > maxRent.value
  {
    if AmountGiven(minRent) && AmountGiven(maxRent) && minRent.value > maxRent.value then Fail(MinRentAboveMax)
    else Pass
  }

  /**
   * The fields only admit bounds of at least zero, and a bound of zero never triggers the
   * check: with `min = 500` and `max = 0` the search is accepted. Over admissible bounds
   * the range is rejected exactly when a positive maximum lies below the minimum.
   */
  lemma SearchZeroBoundIgnored(minRent: Option<real>, maxRent: Option<real>)
    requires minRent.Some? ==> minRent.value >= 0.0
    requires maxRent.Some? ==> maxRent.value >= 0.0
    ensures CleanSearch(minRent, Some(0.0)).Pass? && CleanSearch(Some(0.0), maxRent).Pass?
    ensures CleanSearch(minRent, maxRent).Fail? <==>
      minRent.Some? && maxRent.Some? && maxRent.value > 0.0 && minRent.value > maxRent.value
  {
  }

  // ---------------------------------------------------------------------------
  // Booking

  /**
   * The booking dates: the end must follow the start, the start may not be in the past,
   * and, when the form was given the property, the start may not precede its
   * `available_from` date. The checks run in that order and the first failure is reported.
   */
  function CleanBooking(start: Option<Date>, end: Option<Date>, today: Date, availableFrom: Option<Date>): (r: Check<FormError>)
    ensures r.Pass? <==>
      && (start.Some? && end.Some? ==> Before(start.value, end.value) && AtOrBefore(today, start.value))
      && (start.Some? && availableFrom.Some? ==> AtOrBefore(availableFrom.value, start.value))
    ensures r == Fail(EndNotAfterStart) <==> start.Some? && end.Some? && AtOrBefore(end.value, start.value)
    ensures r == Fail(StartInPast) <==>
      start.Some? && end.Some? && Before(start.value, end.value) && Before(start.value, today)
    ensures r == Fail(StartBeforeAvailable) <==>
      && start.Some? && availableFrom.Some? && Before(start.value, availableFrom.value)
      && !(end.Some? && (AtOrBefore(end.value, start.value) || Before(start.value, today)))
    ensures r.Fail? ==> r.error in {EndNotAfterStart, StartInPast, StartBeforeAvailable}
  {
    if start.Some? && end.Some? && !Before(start.value, end.value) then Fail(EndNotAfterStart)
    else if start.Some? && end.Some? && Before(start.value, today) then Fail(StartInPast)
    else if availableFrom.Some? && start.Some? && Before(start.value, availableFrom.value) then Fail(StartBeforeAvailable)
    else Pass
  }

  /** Without the property the availability rule is never applied. */
  lemma BookingWithoutPropertyIgnoresAvailability(start: Date, end: Date, today: Date, availableFrom: Date)
    requires Before(start, end) && AtOrBefore(today, start)
    ensures CleanBooking(Some(start), Some(end), today, None).Pass?
    ensures CleanBooking(Some(start), Some(end), today, Some(availableFrom)).Pass? <==> AtOrBefore(availableFrom, start)
  {
  }

  // ---------------------------------------------------------------------------
  // Manual payments

  /** Exactly the positive amounts are accepted. */
  function CleanPaymentAmount(amount: real): (r: Check<FormError>)
    ensures r.Pass? <==> amount > 0.0
    ensures r.Fail? ==> r.error == AmountNotPositive
  {
    if amount <= 0.0 then Fail(AmountNotPositive) else Pass
  }

  /** An absent due date or one on or after today is accepted. */
  function CleanDueDate(due: Option<Date>, today: Date): (r: Check<FormError>)
    ensures r.Pass? <==> due.None? || AtOrBefore(today, due.value)
    ensures r.Fail? ==> r.error == DueInPast
  {
    if due.Some? && Before(due.value, today) then Fail(DueInPast) else Pass
  }

  // ---------------------------------------------------------------------------
  // Complaints, reviews, messages, reports

  /** Titles of at least five characters are accepted. */
  function CleanComplaintTitle(title: string): (r: Check<FormError>)
    ensures r.Pass? <==> |title| >= 5
    ensures r.Fail? ==> r.error == TitleTooShort
  {
    if |title| < 5 then Fail(TitleTooShort) else Pass
  }

  /** Exactly the ratings 1 to 5 are accepted. */
  function CleanRating(rating: int): (r: Check<FormError>)
    ensures r.Pass? <==> rating in {1, 2, 3, 4, 5}
    ensures r.Fail? ==> r.error == RatingOutOfRange
  {
    if rating < 1 || rating > 5 then Fail(RatingOutOfRange) else Pass
  }

  /** A review may be left empty; a non-empty one needs at least ten characters. */
  function CleanReviewText(text: string): (r: Check<FormError>)
    ensures r.Pass? <==> |text| == 0 || |text| >= 10
    ensures r.Fail? ==> r.error == ReviewTooShort
  {
    if text != [] && |text| < 10 then Fail(ReviewTooShort) else Pass
  }

  /** The characters Python's `str.strip()` removes. */
  predicate IsSpace(c: char) {
    || ('\t' <= c <= '\r')
    || ('\U{1C}' <= c <= ' ')
    || c == '\U{85}' || c == '\U{A0}' || c == '\U{1680}'
    || ('\U{2000}' <= c <= '\U{200A}')
    || c == '\U{2028}' || c == '\U{2029}' || c == '\U{202F}' || c == '\U{205F}' || c == '\U{3000}'
  }

  predicate AllSpace(s: string) {
    forall i :: 0 <= i < |s| ==> IsSpace(s[i])
  }

  /** The first index at or after `i` that does not hold whitespace, or `|s|`: where `strip()` starts. */
  function SkipSpace(s: string, i: nat): (n: nat)
    requires i <= |s|
    ensures i <= n <= |s|
    ensures forall k :: i <= k < n ==> IsSpace(s[k])
    ensures n == |s| || !IsSpace(s[n])
    decreases |s| - i
  {
    if i < |s| && IsSpace(s[i]) then SkipSpace(s, i + 1) else i
  }

  /**
   * The index just past the last character before `j`, and not before `lo`, that is not
   * whitespace, or `lo`: where `strip()` ends.
   */
  function BackSpace(s: string, lo: nat, j: nat): (n: nat)
    requires lo <= j <= |s|
    ensures lo <= n <= j
    ensures forall k :: n <= k < j ==> IsSpace(s[k])
    ensures n == lo || !IsSpace(s[n - 1])
  {
    if j > lo && IsSpace(s[j - 1]) then BackSpace(s, lo, j - 1) else j
  }

  /**
   * `s.strip()`: the slice of `s` between its leading and its trailing whitespace, which
   * neither starts nor ends with whitespace; it is empty exactly when the text is
   * whitespace only.
   */
  function Strip(s: string): (r: string)
    ensures var i := SkipSpace(s, 0);
      && i + |r| <= |s| && r == s[i..i + |r|]
      && AllSpace(s[..i]) && AllSpace(s[i + |r|..])
    ensures r == [] || (!IsSpace(r[0]) && !IsSpace(r[|r| - 1]))
    ensures r == [] <==> AllSpace(s)
  {
    var i := SkipSpace(s, 0);
    var j := BackSpace(s, i, |s|);
    SpacePrefix(s, i);
    SpaceSuffix(s, j);
    assert AllSpace(s) ==> i == |s|;
    s[i..j]
  }

  /** A prefix made of whitespace characters is whitespace only. */
  lemma SpacePrefix(s: string, i: nat)
    requires i <= |s| && forall k :: 0 <= k < i ==> IsSpace(s[k])
    ensures AllSpace(s[..i])
  {
    forall k | 0 <= k < i
      ensures IsSpace(s[..i][k])
    {
      assert s[..i][k] == s[k];
    }
  }

  /** A suffix made of whitespace characters is whitespace only. */
  lemma SpaceSuffix(s: string, j: nat)
    requires j <= |s| && forall k :: j <= k < |s| ==> IsSpace(s[k])
    ensures AllSpace(s[j..])
  {
    forall k | 0 <= k < |s| - j
      ensures IsSpace(s[j..][k])
    {
      assert s[j..][k] == s[j + k];
    }
  }

  /** A message is rejected exactly when it holds nothing but whitespace (the empty text included). */
  function CleanMessageText(text: string): (r: Check<FormError>)
    ensures r.Fail? <==> AllSpace(text)
    ensures r.Fail? ==> r.error == EmptyMessage
  {
    if |Strip(text)| < 1 then Fail(EmptyMessage) else Pass
  }

  /** A report period is rejected only when both dates are given and the start follows the end. */
  function CleanReport(start: Option<Date>, end: Option<Date>): (r: Check<FormError>)
    ensures r.Fail? <==> start.Some? && end.Some? && Before(end.value, start.value)
    ensures start.Some? && start == end ==> r.Pass?
    ensures r.Fail? ==> r.error == ReportStartAfterEnd
  {
    if start.Some? && end.Some? && Before(end.value, start.value) then Fail(ReportStartAfterEnd) else Pass
  }
}

=== FILE: ledger.dfy ===
/**
 * The payments table of one booking and the rules views.py applies to it: the status
 * values of models.py, the queries the views run against the table, and each change a
 * view makes to the table, as a function of the table before it. The class in
 * scheduler.dfy applies these changes in place.
 */
module Ledger {
  import opened Wrappers
  import opened Calendar
  import Billing

  datatype BookingStatus = Pending | Confirmed | Cancelled | Completed

  datatype PropertyStatus = Available | Occupied | Maintenance

  /** models.py lists pending, completed and failed; the gateway-cancel view also writes 'cancelled'. */
  datatype PaymentStatus = Pending | Completed | Failed | Cancelled

  /** A row of the payments table; its position in the table stands for `payment_id`. */
  datatype Payment = Payment(
    amount: real,
    due: Date,
    paidOn: Option<Date>,
    status: PaymentStatus,
    txn: Option<string>,
    channel: Option<string>)

  /** The `payment_method` the gateway views write. */
  const GatewayChannel: string := "sslcommerz"

  predicate IsPending(p: Payment) {
    p.status == PaymentStatus.Pending
  }

  predicate HasPending(ps: seq<Payment>) {
    exists i :: 0 <= i < |ps| && IsPending(ps[i])
  }

  predicate HasPendingOn(ps: seq<Payment>, d: Date) {
    exists i :: 0 <= i < |ps| && IsPending(ps[i]) && ps[i].due == d
  }

  predicate HasCompleted(ps: seq<Payment>) {
    exists i :: 0 <= i < |ps| && ps[i].status == PaymentStatus.Completed
  }

  predicate HasTxn(ps: seq<Payment>, t: Option<string>) {
    exists i :: 0 <= i < |ps| && ps[i].txn == t
  }

  /** A payment other than number `k` carries transaction id `t`. */
  predicate TxnUsedElsewhere(ps: seq<Payment>, k: int, t: Option<string>) {
    exists j :: 0 <= j < |ps| && j != k && ps[j].txn == t
  }

  // ---------------------------------------------------------------------------
  // What every reachable table satisfies

  predicate DatesValid(ps: seq<Payment>) {
    forall i :: 0 <= i < |ps| ==>
      ValidDate(ps[i].due) && (ps[i].paidOn.Some? ==> ValidDate(ps[i].paidOn.value))
  }

  /** At most one pending payment per due date. */
  predicate NoDuplicatePending(ps: seq<Payment>) {
    forall i, j :: 0 <= i < j < |ps| && IsPending(ps[i]) && IsPending(ps[j]) ==> ps[i].due != ps[j].due
  }

  /** Every path that completes a payment also records its payment date. */
  predicate CompletedArePaid(ps: seq<Payment>) {
    forall i :: 0 <= i < |ps| && ps[i].status == PaymentStatus.Completed ==> ps[i].paidOn.Some?
  }

  /** The table's unique constraint on `transaction_id` (absent ids may repeat). */
  predicate UniqueTxns(ps: seq<Payment>) {
    forall i, j :: 0 <= i < j < |ps| && ps[i].txn.Some? ==> ps[i].txn != ps[j].txn
  }

  predicate LedgerValid(ps: seq<Payment>) {
    DatesValid(ps) && NoDuplicatePending(ps) && CompletedArePaid(ps) && UniqueTxns(ps)
  }

  // ---------------------------------------------------------------------------
  // Queries

  /**
   * The pending payment with the earliest due date (`order_by('due_date').first()`);
   * among equal due dates the first created.
   */
  function EarliestPending(ps: seq<Payment>): (r: Option<nat>)
    ensures r.None? <==> !HasPending(ps)
    ensures r.Some? ==> r.value < |ps| && IsPending(ps[r.value])
    ensures r.Some? ==> forall i :: 0 <= i < |ps| && IsPending(ps[i]) ==> AtOrBefore(ps[r.value].due, ps[i].due)
    ensures r.Some? ==> forall i :: 0 <= i < r.value && IsPending(ps[i]) ==> Before(ps[r.value].due, ps[i].due)
  {
    if |ps| == 0 then None
    else
      var n := |ps| - 1;
      var k := EarliestPending(ps[..n]);
      assert forall i :: 0 <= i < n ==> ps[..n][i] == ps[i];
      if IsPending(ps[n]) && (k.None? || Before(ps[n].due, ps[k.value].due)) then Some(n) else k
  }

  /** The most recently created pending payment (`order_by('-payment_id').first()`). */
  function LatestPending(ps: seq<Payment>): (r: Option<nat>)
    ensures r.None? <==> !HasPending(ps)
    ensures r.Some? ==> r.value < |ps| && IsPending(ps[r.value])
    ensures r.Some? ==> forall j :: r.value < j < |ps| ==> !IsPending(ps[j])
  {
    if |ps| == 0 then None
    else if IsPending(ps[|ps| - 1]) then Some(|ps| - 1)
    else
      var r := LatestPending(ps[..|ps| - 1]);
      assert forall i :: 0 <= i < |ps| - 1 ==> ps[..|ps| - 1][i] == ps[i];
      r
  }

  /**
   * `Payments.objects.get(transaction_id=t)`: the one payment carrying `t`; none when no
   * payment or more than one carries it.
   */
  function FindByTxn(ps: seq<Payment>, t: Option<string>): (r: Option<nat>)
    ensures r.Some? ==> r.value < |ps| && ps[r.value].txn == t && !TxnUsedElsewhere(ps, r.value, t)
    ensures r.None? ==> !HasTxn(ps, t) || exists i, j :: 0 <= i < j < |ps| && ps[i].txn == t && ps[j].txn == t
  {
    if |ps| == 0 then None
    else
      var n := |ps| - 1;
      assert forall i :: 0 <= i < n ==> ps[..n][i] == ps[i];
      if ps[n].txn == t then (if HasTxn(ps[..n], t) then None else Some(n))
      else FindByTxn(ps[..n], t)
  }

  /** Under the unique constraint a transaction id that is present is always found. */
  lemma FindByTxnFinds(ps: seq<Payment>, t: Option<string>)
    requires UniqueTxns(ps) && t.Some? && HasTxn(ps, t)
    ensures FindByTxn(ps, t).Some?
  {
  }

  /** The latest payment date among completed payments. */
  function LatestPaidDate(ps: seq<Payment>): (r: Option<Date>)
    ensures r.None? <==> !exists i :: 0 <= i < |ps| && ps[i].status == PaymentStatus.Completed && ps[i].paidOn.Some?
    ensures r.Some? ==> exists i :: 0 <= i < |ps| && ps[i].status == PaymentStatus.Completed && ps[i].paidOn == r
    ensures r.Some? ==> forall i :: 0 <= i < |ps| && ps[i].status == PaymentStatus.Completed && ps[i].paidOn.Some?
                          ==> AtOrBefore(ps[i].paidOn.value, r.value)
  {
    if |ps| == 0 then None
    else
      var n := |ps| - 1;
      var r := LatestPaidDate(ps[..n]);
      assert forall i :: 0 <= i < n ==> ps[..n][i] == ps[i];
      if ps[n].status == PaymentStatus.Completed && ps[n].paidOn.Some?
         && (r.None? || Before(r.value, ps[n].paidOn.value))
      then ps[n].paidOn
      else r
  }

  // ---------------------------------------------------------------------------
  // Booking and property transitions shared by the gateway views

  /** A pending booking becomes confirmed; any other status stays. */
  function Promote(b: BookingStatus): BookingStatus {
    if b == BookingStatus.Pending then BookingStatus.Confirmed else b
  }

  /** An available property becomes occupied; any other status stays. */
  function Occupy(p: PropertyStatus): PropertyStatus {
    if p == PropertyStatus.Available then PropertyStatus.Occupied else p
  }

  /** The gateway completes a payment on its own only for stays of at most 30 days. */
  predicate ShortStay(start: Date, end: Date)
    requires ValidDate(start) && ValidDate(end)
  {
    DaysBetween(start, end) <= 30
  }

  // ---------------------------------------------------------------------------
  // Confirming a booking: the first instalment

  /**
   * The first pending instalment created when an owner confirms a booking, due on the
   * later of the start date and today. A stay under 30 days pays rent / 30 per day (at
   * least one day) at once; a longer one pays one month's rent.
   */
  function InitialInstalment(start: Date, end: Date, rent: real, today: Date): (p: Payment)
    requires ValidDate(start) && ValidDate(end)
    ensures IsPending(p) && p.paidOn.None? && p.txn.None? && p.channel.None?
    ensures AtOrBefore(start, p.due) && AtOrBefore(today, p.due) && (p.due == start || p.due == today)
    ensures DaysBetween(start, end) >= Billing.DaysPerMonth ==> p.amount == rent
  {
    var days := DaysBetween(start, end);
    var amount := if days < Billing.DaysPerMonth then Billing.Charge(rent, Billing.Max(1, days)) else rent;
    var due := if AtOrBefore(today, start) then start else today;
    Payment(amount, due, None, PaymentStatus.Pending, None, None)
  }

  /** For a stay under 30 days the first instalment is the whole booking total. */
  lemma InitialInstalmentIsTotal(start: Date, end: Date, rent: real, today: Date)
    requires ValidDate(start) && ValidDate(end) && Before(start, end) && DaysBetween(start, end) < Billing.DaysPerMonth
    ensures InitialInstalment(start, end, rent, today).amount == Billing.BookingCost(start, end, rent).total
  {
    Billing.ShortStayPerDay(start, end, rent);
  }

  // ---------------------------------------------------------------------------
  // Confirming receipt of a payment: the next instalment

  /** `duration_months` when positive, otherwise one payment. */
  function ExpectedCount(durationMonths: int): (n: int)
    ensures n >= 1
  {
    if durationMonths > 0 then durationMonths else 1
  }

  /**
   * The pending instalment created after a payment is confirmed, if any: due one month
   * after `base`, and only when that date is on or before the end date, the table holds
   * fewer payments than expected and no pending payment is due that day.
   */
  function NextInstalment(ps: seq<Payment>, base: Date, end: Date, durationMonths: int, rent: real): (r: Option<Payment>)
    requires ValidDate(base)
    ensures r.Some? <==> (
      && AddOneMonth(base).Some?
      && AtOrBefore(AddOneMonth(base).value, end)
      && |ps| < ExpectedCount(durationMonths)
      && !HasPendingOn(ps, AddOneMonth(base).value))
    ensures r.Some? ==> r.value == Payment(rent, AddOneMonth(base).value, None, PaymentStatus.Pending, None, None)
  {
    match AddOneMonth(base)
    case None => None
    case Some(next) =>
      if AtOrBefore(next, end) && |ps| < ExpectedCount(durationMonths) && !HasPendingOn(ps, next)
      then Some(Payment(rent, next, None, PaymentStatus.Pending, None, None))
      else None
  }

  /** The payment as the owner's confirmation leaves it: completed, its payment date kept or set to today. */
  function MarkReceived(p: Payment, today: Date): (q: Payment)
    ensures q.status == PaymentStatus.Completed
    ensures q.paidOn == (if p.paidOn.Some? then p.paidOn else Some(today))
    ensures q.amount == p.amount && q.due == p.due && q.txn == p.txn && q.channel == p.channel
  {
    p.(status := PaymentStatus.Completed, paidOn := if p.paidOn.Some? then p.paidOn else Some(today))
  }

  /**
   * The table after the owner confirms payment number `id`: the payment is completed,
   * every other payment is kept, and at most one pending instalment is appended, due one
   * calendar month after the confirmed payment's due date, on or before the end date,
   * without pushing the count past the expected count.
   */
  function ConfirmReceipt(ps: seq<Payment>, id: nat, today: Date, end: Date, durationMonths: int, rent: real): (r: seq<Payment>)
    requires id < |ps| && ValidDate(ps[id].due)
    ensures |r| == |ps| || |r| == |ps| + 1
    ensures |r| == |ps| + 1 <==> NextInstalment(ps[id := MarkReceived(ps[id], today)], ps[id].due, end, durationMonths, rent).Some?
    ensures r[id] == MarkReceived(ps[id], today)
    ensures forall j :: 0 <= j < |ps| && j != id ==> r[j] == ps[j]
    ensures |r| == |ps| + 1 ==>
      && |r| <= ExpectedCount(durationMonths)
      && IsPending(r[|ps|]) && r[|ps|].amount == rent
      && Some(r[|ps|].due) == AddOneMonth(ps[id].due)
      && AtOrBefore(r[|ps|].due, end)
    ensures |r| == |ps| + 1 ==>
      r[|ps|] == Payment(rent, AddOneMonth(ps[id].due).value, None, PaymentStatus.Pending, None, None)
  {
    var marked := ps[id := MarkReceived(ps[id], today)];
    match NextInstalment(marked, ps[id].due, end, durationMonths, rent)
    case None => marked
    case Some(p) => marked + [p]
  }

  lemma ConfirmReceiptKeepsLedger(ps: seq<Payment>, id: nat, today: Date, end: Date, durationMonths: int, rent: real)
    requires LedgerValid(ps) && id < |ps| && ValidDate(today)
    ensures LedgerValid(ConfirmReceipt(ps, id, today, end, durationMonths, rent))
  {
    var marked := ps[id := MarkReceived(ps[id], today)];
    assert LedgerValid(marked);
    var next := NextInstalment(marked, ps[id].due, end, durationMonths, rent);
    if next.Some? {
      var r := marked + [next.value];
      forall i, j | 0 <= i < j < |r| && IsPending(r[i]) && IsPending(r[j])
        ensures r[i].due != r[j].due
      {
        if j == |marked| {
          assert !HasPendingOn(marked, next.value.due);
        }
      }
    }
  }

  /**
   * Confirming the same payment a second time changes nothing: the payment is already
   * completed, and the instalment the first confirmation may have appended (or the reason
   * it appended none) stops a second one.
   */
  lemma ConfirmTwiceCreatesOnce(ps: seq<Payment>, id: nat, today: Date, end: Date, durationMonths: int, rent: real)
    requires id < |ps| && ValidDate(ps[id].due)
    ensures var once := ConfirmReceipt(ps, id, today, end, durationMonths, rent);
      ConfirmReceipt(once, id, today, end, durationMonths, rent) == once
  {
    var once := ConfirmReceipt(ps, id, today, end, durationMonths, rent);
    var n := |ps|;
    var marked := ps[id := MarkReceived(ps[id], today)];
    var again := once[id := MarkReceived(once[id], today)];
    assert again == once;
    if |once| == n + 1 {
      assert IsPending(again[n]) && again[n].due == AddOneMonth(once[id].due).value;
      assert HasPendingOn(again, AddOneMonth(once[id].due).value);
    } else {
      assert once == marked;
    }
  }

  // ---------------------------------------------------------------------------
  // Starting a gateway payment

  /** The table after a gateway session starts, and the payment the session refers to. */
  datatype Reservation = Reservation(payments: seq<Payment>, id: Option<nat>)

  /**
   * The earliest pending payment is reused, taking the new transaction id; with no
   * pending payment a new one for the booking total, due today, is created. A save that
   * would repeat another payment's transaction id fails and changes nothing. So the
   * session refers to a pending payment carrying its transaction id, a payment is created
   * only when none was pending, and nothing else in the table changes.
   */
  function ReserveForGateway(ps: seq<Payment>, txn: string, total: real, today: Date): (r: Reservation)
    ensures r.id.Some? ==> r.id.value < |r.payments| && IsPending(r.payments[r.id.value])
                           && r.payments[r.id.value].txn == Some(txn)
    ensures r.id.None? ==> r.payments == ps
    ensures r.id.None? <==>
      if HasPending(ps) then TxnUsedElsewhere(ps, EarliestPending(ps).value, Some(txn)) else HasTxn(ps, Some(txn))
    ensures |r.payments| == |ps| || (|r.payments| == |ps| + 1 && !HasPending(ps))
    ensures forall j :: 0 <= j < |ps| && Some(j) != r.id ==> r.payments[j] == ps[j]
    ensures HasPending(ps) && r.id.Some? ==> r.id == EarliestPending(ps)
    ensures !HasPending(ps) && r.id.Some? ==> r.id == Some(|ps|) && r.payments[|ps|].amount == total && r.payments[|ps|].due == today
    ensures HasPending(ps) && r.id.Some? ==>
      r.payments[r.id.value] == ps[r.id.value].(txn := Some(txn), channel := Some(GatewayChannel))
    ensures !HasPending(ps) && r.id.Some? ==>
      r.payments[|ps|] == Payment(total, today, None, PaymentStatus.Pending, Some(txn), Some(GatewayChannel))
  {
    match EarliestPending(ps)
    case Some(k) =>
      if TxnUsedElsewhere(ps, k, Some(txn)) then Reservation(ps, None)
      else Reservation(ps[k := ps[k].(txn := Some(txn), channel := Some(GatewayChannel))], Some(k))
    case None =>
      if HasTxn(ps, Some(txn)) then Reservation(ps, None)
      else Reservation(ps + [Payment(total, today, None, PaymentStatus.Pending, Some(txn), Some(GatewayChannel))], Some(|ps|))
  }

  lemma ReserveKeepsLedger(ps: seq<Payment>, txn: string, total: real, today: Date)
    requires LedgerValid(ps) && ValidDate(today)
    ensures LedgerValid(ReserveForGateway(ps, txn, total, today).payments)
  {
    var r := ReserveForGateway(ps, txn, total, today);
    if EarliestPending(ps).None? && r.id.Some? {
      // Nothing was pending, so the new payment is the only pending one.
      assert forall i :: 0 <= i < |ps| ==> r.payments[i] == ps[i] && !IsPending(ps[i]);
    }
  }

  // ---------------------------------------------------------------------------
  // Gateway outcomes

  /**
   * The payment a gateway success refers to: the session's payment, else the one carrying
   * the gateway's transaction id, else the latest pending payment of the session's booking.
   */
  function LocateGatewayPayment(ps: seq<Payment>, sessionPayment: Option<nat>, txn: Option<string>, sessionBooking: bool): (r: Option<nat>)
    ensures r.Some? ==> r.value < |ps|
    ensures sessionPayment.Some? && sessionPayment.value < |ps| ==> r == sessionPayment
    ensures !(sessionPayment.Some? && sessionPayment.value < |ps|) && txn.Some? && FindByTxn(ps, txn).Some? ==>
      r == FindByTxn(ps, txn) && ps[r.value].txn == txn
    ensures !(sessionPayment.Some? && sessionPayment.value < |ps|) && !(txn.Some? && FindByTxn(ps, txn).Some?) ==>
      r == (if sessionBooking then LatestPending(ps) else None)
    ensures r.Some? && r != sessionPayment && ps[r.value].txn != txn ==> sessionBooking && IsPending(ps[r.value])
  {
    if sessionPayment.Some? && sessionPayment.value < |ps| then sessionPayment
    else if txn.Some? && FindByTxn(ps, txn).Some? then FindByTxn(ps, txn)
    else if sessionBooking then LatestPending(ps)
    else None
  }

  /**
   * The payment after a verified gateway success: it records the gateway's transaction id
   * and a payment date if it had none, and is completed only for a short stay.
   */
  function RecordGatewaySuccess(p: Payment, txn: Option<string>, today: Date, short: bool): (q: Payment)
    ensures q.txn == txn && q.paidOn == (if p.paidOn.Some? then p.paidOn else Some(today))
    ensures q.status == (if short then PaymentStatus.Completed else p.status)
    ensures q.amount == p.amount && q.due == p.due && q.channel == p.channel
  {
    var recorded := p.(txn := txn, paidOn := if p.paidOn.Some? then p.paidOn else Some(today));
    if short then recorded.(status := PaymentStatus.Completed) else recorded
  }

  /** The payment after a verified instant payment notification: completed and paid today. */
  function RecordIpn(p: Payment, today: Date): (q: Payment)
    ensures q.status == PaymentStatus.Completed && q.paidOn == Some(today)
    ensures q.amount == p.amount && q.due == p.due && q.txn == p.txn && q.channel == p.channel
  {
    p.(status := PaymentStatus.Completed, paidOn := Some(today))
  }

  lemma GatewaySuccessKeepsLedger(ps: seq<Payment>, k: nat, txn: Option<string>, today: Date, short: bool)
    requires LedgerValid(ps) && k < |ps| && ValidDate(today)
    requires txn.Some? ==> !TxnUsedElsewhere(ps, k, txn)
    ensures LedgerValid(ps[k := RecordGatewaySuccess(ps[k], txn, today, short)])
  {
    var q := ps[k := RecordGatewaySuccess(ps[k], txn, today, short)];
    forall i, j | 0 <= i < j < |q| && q[i].txn.Some?
      ensures q[i].txn != q[j].txn
    {
      if i == k {
        assert ps[j].txn != txn;
      } else if j == k {
        assert ps[i].txn != txn;
      }
    }
  }

  lemma IpnKeepsLedger(ps: seq<Payment>, k: nat, today: Date)
    requires LedgerValid(ps) && k < |ps| && ValidDate(today)
    ensures LedgerValid(ps[k := RecordIpn(ps[k], today)])
  {
  }

  /** Failing or cancelling a payment leaves it no longer pending; the rest of the table stays. */
  lemma CloseKeepsLedger(ps: seq<Payment>, k: nat, s: PaymentStatus)
    requires LedgerValid(ps) && k < |ps| && s != PaymentStatus.Pending && s != PaymentStatus.Completed
    ensures LedgerValid(ps[k := ps[k].(status := s)])
  {
  }

  // ---------------------------------------------------------------------------
  // The tenant dashboard's view of a booking

  /** Paid up to the end date: nothing pending due by then, and something completed. */
  predicate FullyPaid(ps: seq<Payment>, end: Date) {
    && !(exists i :: 0 <= i < |ps| && IsPending(ps[i]) && AtOrBefore(ps[i].due, end))
    && HasCompleted(ps)
  }

  /** `payment_due`, `next_payment_due` and `fully_paid` (absent where the view leaves it unset). */
  datatype DashboardRow = DashboardRow(paymentDue: bool, nextDue: Option<Date>, fullyPaid: Option<bool>)

  /**
   * With a pending payment the earliest one is due now. Otherwise "fully paid" reduces to
   * "some payment completed", and the next due date is one calendar month after the
   * latest payment date (28 to 31 days later), due once today reaches it; a table with
   * nothing completed shows nothing due. A date past the last representable year makes
   * the view fall back to "due" with no date.
   */
  function Dashboard(ps: seq<Payment>, end: Date, today: Date): (row: DashboardRow)
    requires DatesValid(ps)
    ensures HasPending(ps) ==> row.paymentDue && row.nextDue == Some(ps[EarliestPending(ps).value].due) && row.fullyPaid.None?
    ensures !HasPending(ps) && row.fullyPaid.Some? ==> row.fullyPaid.value == HasCompleted(ps)
    ensures !HasPending(ps) && !HasCompleted(ps) ==> !row.paymentDue && row.nextDue.None? && row.fullyPaid == Some(false)
    ensures LatestPaidDate(ps).Some? ==> ValidDate(LatestPaidDate(ps).value)
    ensures !HasPending(ps) && LatestPaidDate(ps).Some? && AddOneMonth(LatestPaidDate(ps).value).Some? ==>
      && row.nextDue == AddOneMonth(LatestPaidDate(ps).value)
      && row.fullyPaid == Some(HasCompleted(ps))
      && (row.paymentDue <==> AtOrBefore(row.nextDue.value, today))
    ensures !HasPending(ps) && LatestPaidDate(ps).Some? && AddOneMonth(LatestPaidDate(ps).value).None? ==>
      row == DashboardRow(true, None, None)
    ensures !HasPending(ps) && row.nextDue.Some? ==>
      && LatestPaidDate(ps).Some?
      && row.nextDue == AddOneMonth(LatestPaidDate(ps).value)
      && 28 <= DaysBetween(LatestPaidDate(ps).value, row.nextDue.value) <= 31
      && (row.paymentDue <==> AtOrBefore(row.nextDue.value, today))
  {
    match EarliestPending(ps)
    case Some(k) => DashboardRow(true, Some(ps[k].due), None)
    case None =>
      match LatestPaidDate(ps)
      case None => DashboardRow(false, None, Some(FullyPaid(ps, end)))
      case Some(lp) =>
        assert exists i :: 0 <= i < |ps| && ps[i].paidOn == Some(lp);
        match AddOneMonth(lp)
        case None => DashboardRow(true, None, None)
        case Some(next) =>
          AddOneMonthSpan(lp);
          DashboardRow(AtOrBefore(next, today), Some(next), Some(FullyPaid(ps, end)))
  }
}

=== FILE: scheduler.dfy ===
/**
 * One booking as the views change it: created by `book_property`, confirmed or cancelled
 * by the owner or tenant, and paid through owner confirmation or the SSLCommerz gateway
 * handlers (views.py). The booking's own status, its property's status and its payments
 * table are fields that the view methods update in place.
 */
module Scheduler {
  import opened Wrappers
  import opened Calendar
  import opened Billing
  import opened Forms
  import opened Ledger

  /** The property row as `book_property` reads it. */
  datatype Property = Property(rent: real, deposit: Option<real>, availableFrom: Date, status: PropertyStatus)

  /** What a successful booking request stores: dates, `duration_months`, `total_amount`, `security_deposit`. */
  datatype BookingTerms = BookingTerms(start: Date, end: Date, months: int, total: real, deposit: real)

  datatype Refusal = PropertyNotAvailable | Invalid(error: FormError)

  /**
   * The property's security deposit, or one month's rent when it has none (or zero): a
   * zero deposit never stands unless the rent is zero too.
   */
  function SecurityDeposit(p: Property): (d: real)
    ensures d == p.rent || (p.deposit.Some? && d == p.deposit.value)
    ensures p.deposit.Some? && p.deposit.value != 0.0 ==> d == p.deposit.value
    ensures d == 0.0 ==> p.rent == 0.0
  {
    if p.deposit.Some? && p.deposit.value != 0.0 then p.deposit.value else p.rent
  }

  /**
   * `book_property` as written: the form is built without the property, so the start
   * date is never compared with `available_from`, and the cost is the calculator as
   * written. A request is accepted exactly for an available property, an end after the
   * start and a start not in the past; the stored terms are the calculator's months and
   * total and the deposit, and a positive rent gives a positive total.
   */
  function BookPropertyAsWritten(prop: Property, start: Date, end: Date, today: Date): (r: Result<BookingTerms, Refusal>)
    requires ValidDate(start) && ValidDate(end)
    ensures r.Ok? <==> prop.status == PropertyStatus.Available && Before(start, end) && AtOrBefore(today, start)
    ensures prop.status != PropertyStatus.Available ==> r == Err(PropertyNotAvailable)
    ensures r.Ok? ==>
      && r.value.start == start && r.value.end == end
      && Cost(r.value.months, r.value.total) == BookingCostAsWritten(start, end, prop.rent)
      && r.value.deposit == SecurityDeposit(prop)
      && (prop.rent > 0.0 ==> r.value.total > 0.0)
  {
    if prop.status != PropertyStatus.Available then Err(PropertyNotAvailable)
    else match CleanBooking(Some(start), Some(end), today, None)
      case Fail(e) => Err(Invalid(e))
      case Pass =>
        var c := BookingCostAsWritten(start, end, prop.rent);
        assert prop.rent > 0.0 ==> c.total > 0.0 by {
          if prop.rent > 0.0 {
            ChargePositive(prop.rent, BilledDaysAsWritten(start, end));
          }
        }
        Ok(BookingTerms(start, end, c.months, c.total, SecurityDeposit(prop)))
  }

  /**
   * `book_property` with the form given the property and the corrected calculator. A
   * request is accepted exactly for an available property, an end after the start, and a
   * start neither in the past nor before the property is available; the stored terms are
   * the booking's cost and deposit, and a positive rent gives a positive total.
   */
  function BookProperty(prop: Property, start: Date, end: Date, today: Date): (r: Result<BookingTerms, Refusal>)
    requires ValidDate(start) && ValidDate(end)
    ensures r.Ok? <==>
      && prop.status == PropertyStatus.Available
      && Before(start, end) && AtOrBefore(today, start) && AtOrBefore(prop.availableFrom, start)
    ensures prop.status != PropertyStatus.Available ==> r == Err(PropertyNotAvailable)
    ensures r.Ok? ==>
      && r.value.start == start && r.value.end == end
      && Cost(r.value.months, r.value.total) == BookingCost(start, end, prop.rent)
      && r.value.deposit == SecurityDeposit(prop)
      && (prop.rent > 0.0 ==> r.value.total > 0.0)
  {
    if prop.status != PropertyStatus.Available then Err(PropertyNotAvailable)
    else match CleanBooking(Some(start), Some(end), today, Some(prop.availableFrom))
      case Fail(e) => Err(Invalid(e))
      case Pass =>
        var c := BookingCost(start, end, prop.rent);
        assert prop.rent > 0.0 ==> c.total > 0.0 by {
          if prop.rent > 0.0 {
            PositiveCharge(start, end, prop.rent);
          }
        }
        Ok(BookingTerms(start, end, c.months, c.total, SecurityDeposit(prop)))
  }

  /**
   * A start date a month before the property becomes available is accepted as written
   * and refused once the form is given the property.
   */
  lemma BookingBeforeAvailability()
    ensures var prop := Property(30000.0, None, Date(2026, 12, 1), PropertyStatus.Available);
      var today := Date(2026, 10, 11);
      && BookPropertyAsWritten(prop, Date(2026, 11, 1), Date(2026, 12, 15), today).Ok?
      && BookProperty(prop, Date(2026, 11, 1), Date(2026, 12, 15), today) == Err(Invalid(StartBeforeAvailable))
  {
  }

  /** Where the availability rule holds, the two accept the same requests and agree on all but the floored cost. */
  lemma BookPropertyAgreesWhenAvailable(prop: Property, start: Date, end: Date, today: Date)
    requires ValidDate(start) && ValidDate(end) && AtOrBefore(prop.availableFrom, start)
    ensures var w := BookPropertyAsWritten(prop, start, end, today);
      var c := BookProperty(prop, start, end, today);
      && w.Ok? == c.Ok?
      && (w.Err? ==> w == c)
      && (w.Ok? && !FlooredStay(start, end) ==> w == c)
  {
    if Before(start, end) && !FlooredStay(start, end) {
      CorrectionOnlyOnFlooredStays(start, end, prop.rent);
    }
  }

  /** The outcome of a verified gateway success callback. */
  datatype GatewayOutcome =
    | NotVerified
    | RecordNotFound
    | SaveRejected
    | Settled(id: nat)
    | AwaitingOwner(id: nat)

  class Booking {
    const start: Date
    const end: Date
    const durationMonths: int
    const totalAmount: real
    /** The property's monthly rent. */
    const rent: real
    var status: BookingStatus
    var propertyStatus: PropertyStatus
    var payments: seq<Payment>

    ghost predicate Valid()
      reads this
    {
      && ValidDate(start) && ValidDate(end) && Before(start, end)
      && LedgerValid(payments)
    }

    /**
     * The booking row `book_property` saves, pending, with no payments yet. It takes the
     * terms as the view computed them (`BookPropertyAsWritten` only accepts an end after
     * the start), including the doubled total of a floored stay.
     */
    constructor (terms: BookingTerms, rent: real, propertyStatus: PropertyStatus)
      requires ValidDate(terms.start) && ValidDate(terms.end) && Before(terms.start, terms.end)
      ensures Valid()
      ensures start == terms.start && end == terms.end && this.rent == rent
      ensures durationMonths == terms.months && totalAmount == terms.total
      ensures status == BookingStatus.Pending && this.propertyStatus == propertyStatus && payments == []
    {
      start := terms.start;
      end := terms.end;
      durationMonths := terms.months;
      totalAmount := terms.total;
      this.rent := rent;
      status := BookingStatus.Pending;
      this.propertyStatus := propertyStatus;
      payments := [];
    }

    /**
     * The owner confirms a pending booking: it becomes confirmed, the property occupied,
     * and, if the booking has no payments yet, the first instalment is created.
     */
    method ConfirmBooking(today: Date) returns (confirmed: bool)
      requires Valid() && ValidDate(today)
      modifies this
      ensures Valid()
      ensures confirmed <==> old(status) == BookingStatus.Pending
      ensures confirmed ==> status == BookingStatus.Confirmed && propertyStatus == PropertyStatus.Occupied
      ensures confirmed ==> payments == old(payments) + (if old(payments) == [] then [InitialInstalment(start, end, rent, today)] else [])
      ensures !confirmed ==> status == old(status) && propertyStatus == old(propertyStatus) && payments == old(payments)
    {
      if status != BookingStatus.Pending {
        return false;
      }
      status := BookingStatus.Confirmed;
      propertyStatus := PropertyStatus.Occupied;
      if payments == [] {
        payments := [InitialInstalment(start, end, rent, today)];
      }
      confirmed := true;
    }

    /** A pending booking is cancelled and an occupied property freed; anything else is left alone. */
    method CancelBooking() returns (cancelled: bool)
      requires Valid()
      modifies this
      ensures Valid()
      ensures cancelled <==> old(status) == BookingStatus.Pending
      ensures cancelled ==> status == BookingStatus.Cancelled
      ensures cancelled ==> propertyStatus == (if old(propertyStatus) == PropertyStatus.Occupied then PropertyStatus.Available else old(propertyStatus))
      ensures !cancelled ==> status == old(status) && propertyStatus == old(propertyStatus)
      ensures payments == old(payments)
    {
      if status != BookingStatus.Pending {
        return false;
      }
      status := BookingStatus.Cancelled;
      if propertyStatus == PropertyStatus.Occupied {
        propertyStatus := PropertyStatus.Available;
      }
      cancelled := true;
    }

    /**
     * The owner marks payment `id` received, and the next monthly instalment is created
     * when the schedule calls for one.
     */
    method ConfirmPayment(id: nat, today: Date) returns (found: bool, created: bool)
      requires Valid() && ValidDate(today)
      modifies this
      ensures Valid()
      ensures found <==> id < |old(payments)|
      ensures found ==> payments == ConfirmReceipt(old(payments), id, today, end, durationMonths, rent)
      ensures !found ==> payments == old(payments)
      ensures created <==> |payments| == |old(payments)| + 1
      ensures created ==> |payments| <= ExpectedCount(durationMonths)
      ensures status == old(status) && propertyStatus == old(propertyStatus)
    {
      if id >= |payments| {
        return false, false;
      }
      var p := payments[id];
      var paidOn := if p.paidOn.Some? then p.paidOn else Some(today);
      payments := payments[id := p.(status := PaymentStatus.Completed, paidOn := paidOn)];
      created := false;
      var next := AddOneMonth(p.due);
      if next.Some? && AtOrBefore(next.value, end) && |payments| < ExpectedCount(durationMonths)
         && !HasPendingOn(payments, next.value)
      {
        payments := payments + [Payment(rent, next.value, None, PaymentStatus.Pending, None, None)];
        created := true;
      }
      ConfirmReceiptKeepsLedger(old(payments), id, today, end, durationMonths, rent);
      found := true;
    }

    /**
     * A gateway session starts for transaction `txn`: the earliest pending payment takes
     * the transaction id, or a payment for the booking total is created when none is
     * pending. Returns the payment the session refers to.
     */
    method StartGatewayPayment(txn: string, today: Date) returns (reserved: Option<nat>)
      requires Valid() && ValidDate(today)
      modifies this
      ensures Valid()
      ensures payments == ReserveForGateway(old(payments), txn, totalAmount, today).payments
      ensures reserved == ReserveForGateway(old(payments), txn, totalAmount, today).id
      ensures status == old(status) && propertyStatus == old(propertyStatus)
    {
      var k := EarliestPending(payments);
      if k.Some? {
        if TxnUsedElsewhere(payments, k.value, Some(txn)) {
          return None;
        }
        payments := payments[k.value := payments[k.value].(txn := Some(txn), channel := Some(GatewayChannel))];
        reserved := k;
      } else {
        if HasTxn(payments, Some(txn)) {
          return None;
        }
        payments := payments + [Payment(totalAmount, today, None, PaymentStatus.Pending, Some(txn), Some(GatewayChannel))];
        reserved := Some(|payments| - 1);
      }
      ReserveKeepsLedger(old(payments), txn, totalAmount, today);
    }

    /**
     * The gateway reports success. Once verified, the payment found records the
     * transaction; a stay of at most 30 days completes it and confirms the booking and
     * occupies the property, a longer stay leaves it for the owner to confirm.
     */
    method GatewaySuccess(verified: bool, sessionPayment: Option<nat>, txn: Option<string>, sessionBooking: bool, today: Date)
      returns (outcome: GatewayOutcome)
      requires Valid() && ValidDate(today)
      modifies this
      ensures Valid()
      ensures !verified ==> outcome == NotVerified && payments == old(payments)
      ensures verified ==>
        var k := LocateGatewayPayment(old(payments), sessionPayment, txn, sessionBooking);
        && (k.None? ==> outcome == RecordNotFound && payments == old(payments))
        && (k.Some? && txn.Some? && TxnUsedElsewhere(old(payments), k.value, txn) ==>
              outcome == SaveRejected && payments == old(payments))
        && (k.Some? && !(txn.Some? && TxnUsedElsewhere(old(payments), k.value, txn)) ==>
              && payments == old(payments)[k.value := RecordGatewaySuccess(old(payments)[k.value], txn, today, ShortStay(start, end))]
              && outcome == (if ShortStay(start, end) then Settled(k.value) else AwaitingOwner(k.value)))
      ensures status == (if outcome.Settled? then Promote(old(status)) else old(status))
      ensures propertyStatus == (if outcome.Settled? then Occupy(old(propertyStatus)) else old(propertyStatus))
    {
      if !verified {
        return NotVerified;
      }
      var k := LocateGatewayPayment(payments, sessionPayment, txn, sessionBooking);
      if k.None? {
        return RecordNotFound;
      }
      var i := k.value;
      if txn.Some? && TxnUsedElsewhere(payments, i, txn) {
        return SaveRejected;
      }
      var short := ShortStay(start, end);
      GatewaySuccessKeepsLedger(payments, i, txn, today, short);
      var p := payments[i];
      var recorded := p.(txn := txn, paidOn := if p.paidOn.Some? then p.paidOn else Some(today));
      if short {
        payments := payments[i := recorded.(status := PaymentStatus.Completed)];
        if status == BookingStatus.Pending {
          status := BookingStatus.Confirmed;
        }
        if propertyStatus == PropertyStatus.Available {
          propertyStatus := PropertyStatus.Occupied;
        }
        outcome := Settled(i);
      } else {
        payments := payments[i := recorded];
        outcome := AwaitingOwner(i);
      }
    }

    /** The gateway reports failure: the session's payment, if it exists, is marked failed. */
    method GatewayFail(sessionPayment: Option<nat>)
      requires Valid()
      modifies this
      ensures Valid()
      ensures sessionPayment.Some? && sessionPayment.value < |old(payments)| ==>
        payments == old(payments)[sessionPayment.value := old(payments)[sessionPayment.value].(status := PaymentStatus.Failed)]
      ensures !(sessionPayment.Some? && sessionPayment.value < |old(payments)|) ==> payments == old(payments)
      ensures status == old(status) && propertyStatus == old(propertyStatus)
    {
      if sessionPayment.Some? && sessionPayment.value < |payments| {
        var k := sessionPayment.value;
        CloseKeepsLedger(payments, k, PaymentStatus.Failed);
        payments := payments[k := payments[k].(status := PaymentStatus.Failed)];
      }
    }

    /** The tenant cancels at the gateway: the session's payment, if it exists, is marked cancelled. */
    method GatewayCancel(sessionPayment: Option<nat>)
      requires Valid()
      modifies this
      ensures Valid()
      ensures sessionPayment.Some? && sessionPayment.value < |old(payments)| ==>
        payments == old(payments)[sessionPayment.value := old(payments)[sessionPayment.value].(status := PaymentStatus.Cancelled)]
      ensures !(sessionPayment.Some? && sessionPayment.value < |old(payments)|) ==> payments == old(payments)
      ensures status == old(status) && propertyStatus == old(propertyStatus)
    {
      if sessionPayment.Some? && sessionPayment.value < |payments| {
        var k := sessionPayment.value;
        CloseKeepsLedger(payments, k, PaymentStatus.Cancelled);
        payments := payments[k := payments[k].(status := PaymentStatus.Cancelled)];
      }
    }

    /**
     * A verified instant payment notification completes the one payment carrying its
     * transaction id, dated today, confirms a pending booking and occupies an available
     * property; with no unique match nothing changes.
     */
    method GatewayIpn(verified: bool, txn: Option<string>, today: Date) returns (applied: Option<nat>)
      requires Valid() && ValidDate(today)
      modifies this
      ensures Valid()
      ensures applied == (if verified then FindByTxn(old(payments), txn) else None)
      ensures applied.Some? ==> payments == old(payments)[applied.value := RecordIpn(old(payments)[applied.value], today)]
      ensures applied.Some? ==> status == Promote(old(status)) && propertyStatus == Occupy(old(propertyStatus))
      ensures applied.None? ==> payments == old(payments) && status == old(status) && propertyStatus == old(propertyStatus)
    {
      if !verified {
        return None;
      }
      applied := FindByTxn(payments, txn);
      if applied.Some? {
        var k := applied.value;
        IpnKeepsLedger(payments, k, today);
        payments := payments[k := payments[k].(status := PaymentStatus.Completed, paidOn := Some(today))];
        if status == BookingStatus.Pending {
          status := BookingStatus.Confirmed;
        }
        if propertyStatus == PropertyStatus.Available {
          propertyStatus := PropertyStatus.Occupied;
        }
      }
    }
  }
}

=== FILE: wrappers.dfy ===
/** Option, validation-outcome and result datatypes used across the model. */
module Wrappers {

  datatype Option<+T> = None | Some(value: T)

  /** Outcome of a form validator: the value passes, or one validation error is raised. */
  datatype Check<+E> = Pass | Fail(error: E)

  datatype Result<+T, +E> = Ok(value: T) | Err(error: E)
}
